=== FILE: README.md ===
# cqrs-framework core, modelled in Dafny

This project models the sequential logic of a Rust event-sourcing/CQRS
framework. The logic sits behind the framework's async traits. Five parts are modelled:

- **Event store** (`PostgresEventStore`). `save_events` is a
  compare-and-append. The highest stored version of the aggregate id (0 when the id
  has no rows) must equal `expected_version`. The batch then gets versions
  `expected_version + 1 ..` and is written in one transaction. `get_events` and
  `get_events_from_version` read an id's envelopes back in version order.
  The `events` table is a map from aggregate id to that id's rows. The
  transaction is a working copy of that map: it replaces the map on commit and
  is dropped on any failure.
- **Command handler** (`CommandHandler::handle`). It loads a snapshot, or
  falls back to the default aggregate when there is none or the load fails. It folds the
  events stored after the snapshot's version and lets the command decide. It
  wraps the new events in envelopes that share one correlation id. It appends
  them with the pre-command version as the optimistic guard. When the
  post-append version is a multiple of 10 it writes a snapshot and ignores that
  write's outcome.
  The aggregate is abstract: a default state, an `apply` and a `version`. The
  hypothesis `Aggregates.Lawful` says that the default is at version 0 and
  that `apply` advances the version by one. The handler never increments the version itself.
- **Command bus** and **query bus** (`InMemoryCommandBus`,
  `InMemoryQueryBus`). Each is a map from a type tag (`TypeId`) to the handler
  registered for it. `Box<dyn Any>` is a value paired with the tag it was
  boxed at, and a downcast compares tags.
- **Event bus** (`InMemoryEventBus`). It keeps subscribers in registration order.
  `publish` loops over events on the outside and subscribers on the inside,
  and stops at the first failure. Each call is recorded as a pair of positions.
  A subscriber's hidden state is represented by the envelopes it has been handed
  so far, and `publish` returns the subscribers with those lists extended.

I/O is replaced by explicit inputs:
- `EventStore.Backend` says which database and JSON steps succeed: begin, version query,
  event and metadata encoding, each insert, commit, read query, row decoding.
- `Snapshots.SnapshotStore` carries flags for whether a snapshot load and a
  snapshot save succeed.
- `CommandHandling.Fresh` carries the random UUIDs and clock readings that
  `EventMetadata::new` would draw.

The central results:
- `CommandHandling.ReplayFromSnapshot`: the state a command is decided on is the
  full replay of the stored history, whatever consistent snapshot it started from.
- `CommandHandling.HandlePreservesInvariants`: handling a command keeps every log
  numbered 1..n and every snapshot faithful to its history.
- `EventBus.Publish`: the delivery order and the early abort.

Points where the code's behaviour is easy to misread, and which the model follows as written:
- The snapshot written at `src/command_handler.rs:66` is the aggregate as it was
  before the command's events, at the pre-command version. It is not the
  post-append state. Replay from it is still correct, because the tail read
  is strictly after the snapshot's version (`CommandHandling.DecidedStateFaithful`,
  `CommandHandling.HandlePreservesInvariants`).
- The snapshot trigger is `(version + count) % 10 == 0`. It fires when the
  post-append version is an exact multiple of 10. A batch that jumps over a
  multiple does not fire it.
- An empty batch given to `save_events` is still checked against
  `expected_version`. With a mismatch it fails with `ConcurrencyConflict`.
  The handler never calls it with an empty batch.
- Registering a second handler for a type replaces the first.
- `src/event_store.rs` declares `save_events`/`get_events` over bare events,
  with no `get_events_from_version`. The model follows the Postgres
  implementation, which works on envelopes and has all three operations.

## Model

| member | source | states |
|---|---|---|
| `Any.Downcast` | src/command_bus.rs:41 | A downcast succeeds exactly when the box was made at the target type, and then returns the boxed value unchanged |
| `Any.BoxThenDowncast` | src/query_bus.rs:84-85 | `Box::new` followed by `downcast` (the query boxed at line 84 and downcast at line 41; the result boxed at line 47 and downcast at line 85): downcasting to the type a value was boxed at gives the value back, and downcasting to any other type fails |
| `Results.OkFlatten` | src/command_handler.rs:27-28 | `.ok().flatten()`: a snapshot is found exactly when the load succeeded and returned one, and it is that one |
| `Aggregates.Fold` | src/command_handler.rs:39-41 | The apply loop, left to right over the events. Its properties are stated by `Aggregates.FoldAppend` and `Aggregates.FoldVersion` |
| `Aggregates.FoldAppend` | src/command_handler.rs:39-41 | Folding a concatenation equals folding the first part and then the second, so replay can resume from any intermediate state |
| `Aggregates.FoldVersion` | src/command_handler.rs:39-41 | If `apply` advances the version by one, folding N events advances the version by N |
| `Aggregates.ReplayVersion` | src/command_handler.rs:30-41 | A full replay of N events from the default aggregate ends at version N |
| `EventStore.MaxVersion` | src/event_store_postgres.rs:46-52 | The guard's version is an upper bound of every stored version and is attained by some row, or is 0 (COALESCE) |
| `EventStore.CurrentVersion` | src/event_store_postgres.rs:46-52 | The version the append guard reads for an id: an upper bound of the id's stored versions, attained by one of its rows, or 0 when it has none |
| `EventStore.ContiguousMax` | src/event_store_postgres.rs:46-52 | For a log numbered 1..n the guard's version is n |
| `EventStore.MaxVersionAppend` | src/event_store_postgres.rs:47 | The maximum version over an appended log is the larger of the two parts' maxima |
| `EventStore.StampMax` | src/event_store_postgres.rs:56-57 | A non-empty batch stamped after `expected` reaches version `expected + n` |
| `EventStore.InsertRows` | src/event_store_postgres.rs:56-72 | The insert loop succeeds iff every envelope encodes and inserts; then the i-th envelope is added at version `expected + i + 1`; its errors are Serialization or Sqlx, never a conflict |
| `EventStore.SaveEvents` | src/event_store_postgres.rs:41-76 | All-or-nothing: a failure leaves the table unchanged and a success appends the whole batch. When the version can be read, a conflict happens exactly on a version mismatch, and a conflict is never reported for anything else: a failed begin or version query is always `Sqlx`. Success iff the guard matches and every step succeeds. Other ids are untouched |
| `EventStore.SaveStoresBatchInOrder` | src/event_store_postgres.rs:56-57 | After a successful save the old rows are kept and the i-th envelope follows them at version `expected + i + 1` |
| `EventStore.SaveAdvancesVersion` | src/event_store_postgres.rs:52-57 | After a successful save of n envelopes, the id's current version is `expected + n` |
| `EventStore.SavePreservesValid` | src/event_store_postgres.rs:46-57 | Saves keep every id's log numbered 1..n in insertion order |
| `EventStore.SecondWriterConflicts` | src/event_store_postgres.rs:46-54 | Once a non-empty batch was appended at some expected version, another save at that version fails with ConcurrencyConflict and changes nothing |
| `EventStore.EmptyBatch` | src/event_store_postgres.rs:52-56 | An empty batch never changes the table; it succeeds iff the expected version matches and fails with ConcurrencyConflict otherwise |
| `EventStore.RowsAfter` | src/event_store_postgres.rs:101 | `version > $2` in log order: never more rows than stored. `EventStore.RowsAfterContents` and `EventStore.RowsAfterSuffix` state which rows |
| `EventStore.RowsAfterContents` | src/event_store_postgres.rs:100-101 | The filtered read holds exactly the stored rows whose version is above `from` |
| `EventStore.RowsAfterAscending` | src/event_store_postgres.rs:101 | Filtering an ascending log gives ascending rows |
| `EventStore.RowsAfterSuffix` | src/event_store_postgres.rs:101 | On a log numbered from base+1, the rows above `from` are the log minus its first `from - base` rows |
| `EventStore.DecodeRows` | src/event_store_postgres.rs:84-94 | The decoding loop (the same loop as lines 108-118): it succeeds iff every row decodes, and then yields the rows' envelopes in order. Otherwise it is a Serialization error |
| `EventStore.Fetch` | src/event_store_postgres.rs:79-94 | A read succeeds iff the query and every row's decoding succeed, and yields the rows' envelopes in order |
| `EventStore.GetEvents` | src/event_store_postgres.rs:78-95 | Returns every stored envelope of the id, the k-th being the one at version k+1. An unknown id gives an empty sequence, not an error |
| `EventStore.GetEventsFromVersion` | src/event_store_postgres.rs:97-119 | Returns exactly the envelopes stored after version `from`, the k-th being the one at version `from + k + 1`. It succeeds iff the query and the decoding of those rows succeed |
| `EventStore.RowsAfterNegative` | src/event_store_postgres.rs:101 | A negative bound in `version > $2` selects every row of the id |
| `EventStore.AsI64` | src/event_store_postgres.rs:104 | `from_version as i64`: unchanged below 2^63, and from 2^63 up to the largest `u64` it is the value minus 2^64, which is negative |
| `EventStore.GetEventsFromVersionAsWritten` | src/event_store_postgres.rs:97-119 | The read with the bound cast to `i64` as written. It equals the intended read for every `from_version` below 2^63, and succeeds iff the query runs and every row above the cast bound decodes |
| `EventStore.WrappedBoundReadsAll` | src/event_store_postgres.rs:104 | As written, every `from_version` from 2^63 to 2^64 - 1 reads exactly what `get_events` reads: the whole log |
| `EventStore.WrappedBoundExample` | src/event_store_postgres.rs:101-104 | With one event stored at version 1, reading from 2^63 returns that event as written, and nothing under the intended reading |
| `EventStore.DecodableAfter` | src/event_store_postgres.rs:108-111 | The rows returned by a filtered read all decode iff every stored row above `from` decodes |
| `EventStore.FromZeroIsAll` | src/event_store_postgres.rs:100-101 | `get_events_from_version(id, 0)` equals `get_events(id)` |
| `Snapshots.GetSnapshot` | src/snapshot.rs:14 | A load fails, finds nothing, or finds exactly the snapshot saved for the id |
| `Snapshots.SaveSnapshot` | src/snapshot.rs:13 | A successful save replaces the id's snapshot and keeps the others; a failed save changes nothing |
| `CommandHandling.StartingAggregate` | src/command_handler.rs:23-30 | A missing snapshot or a failed load makes the handler start from the default aggregate; a loaded snapshot is used as is |
| `CommandHandling.LoadAggregate` | src/command_handler.rs:31-41 | Loading succeeds iff the read query runs and every stored row above the starting aggregate's version decodes. A failed read is a store error, never a conflict |
| `CommandHandling.Wrap` | src/command_handler.rs:46-55 | One envelope per new event, in order. All share the invocation's correlation id and have no causation id |
| `CommandHandling.SnapshotDue` | src/command_handler.rs:64 | The cadence test `(version + count) % 10 == 0`; `CommandHandling.SnapshotCadence` states that a snapshot write is attempted exactly when it holds |
| `CommandHandling.Handle` | src/command_handler.rs:19-73 | A failed invocation leaves the log and the snapshots unchanged. The append is the first write. A snapshot write comes only second and only after a successful append. The snapshot store that results is the one that recorded write produces |
| `CommandHandling.DecideAndPersist` | src/command_handler.rs:43-72 | Same ordering and no-change-on-failure facts for the steps after loading |
| `CommandHandling.TailIsHistorySuffix` | src/command_handler.rs:31-37 | The tail read after version v is the stored history without its first v events |
| `CommandHandling.StartIsFaithful` | src/command_handler.rs:23-30 | The starting aggregate is the default (the replay of nothing) or a consistent snapshot, so it is the replay of a prefix of the history |
| `CommandHandling.HistoryPrefixStable` | src/command_handler.rs:59-62 | Appending to a log leaves every prefix of its event history unchanged |
| `CommandHandling.FaithfulAfterAppend` | src/command_handler.rs:59-66 | A snapshot that replays a prefix of the history stays faithful after events are appended |
| `CommandHandling.DecidedStateFaithful` | src/command_handler.rs:60-66 | The pre-command aggregate the handler snapshots is the replay of a prefix of the new history |
| `CommandHandling.ReplayFromSnapshot` | src/command_handler.rs:23-41 | Snapshot plus tail equals full replay from the default aggregate, at a version equal to the number of stored events |
| `CommandHandling.SnapshotTransparency` | src/command_handler.rs:23-41 | When every stored row of the aggregate decodes and the read query runs, two consistent snapshot stores give the same result, log and attempted writes; an empty or failing store is one of them. Without that hypothesis it fails (`CommandHandling.SnapshotHidesUndecodableRow`) |
| `CommandHandling.SnapshotHidesUndecodableRow` | src/command_handler.rs:23-37 | A concrete case: an aggregate that counts its events, one undecodable row at version 1, and a consistent snapshot at version 1. The invocation succeeds from the snapshot but fails with a Serialization error from the empty store, because only the latter reads the row |
| `CommandHandling.DecideIgnoresSnapshots` | src/command_handler.rs:43-72 | The steps after loading do not depend on the snapshot store except for the store itself |
| `CommandHandling.NoEventsNoWrites` | src/command_handler.rs:45-72 | A decision with no events gives `Ok(())` with no append, no snapshot and nothing changed |
| `CommandHandling.AppendsDecision` | src/command_handler.rs:45-62 | A non-empty decision is appended as one envelope per event, in order, with one shared correlation id and no causation id. The guard is the loaded aggregate's version, which under the invariants is the stored history's length. The new log is that save's table. A failed save is reported as `from_event_store_error` of its error, with no snapshot attempted, and a successful save makes the invocation succeed |
| `CommandHandling.ErrorKinds` | src/command_handler.rs:33-62 | A read failure is reported as a store error of that failure, with nothing attempted. A command error is reported iff the decision failed, carries the command's own error, and nothing is written. A store error after the append was attempted comes with no snapshot attempt |
| `CommandHandling.SnapshotCadence` | src/command_handler.rs:57-69 | After a successful append, a snapshot write is attempted iff `(version + count) % 10 == 0`. It stores the pre-command aggregate. The resulting snapshot store is that write's result (unchanged when the write fails), and is the old store when no write is attempted. The id's version becomes `version + count` |
| `CommandHandling.DecidePreservesInvariants` | src/command_handler.rs:59-69 | From a fully replayed aggregate, appending and snapshotting keep logs contiguous and snapshots faithful |
| `CommandHandling.HandlePreservesInvariants` | src/command_handler.rs:19-73 | Handling a command keeps every log numbered 1..n and every saved snapshot the replay of a prefix of its history |
| `CommandHandling.SerialHandlingNeverConflicts` | src/command_handler.rs:59-62 | When commands are handled one after another, the handler's guard always matches, so its append never fails with a conflict |
| `CommandBus.ErasedHandle` | src/command_bus.rs:38-46 | A box of the wrong type fails with "Type mismatch" and calls nothing. Otherwise the inner handler is called once; its success is `Ok(())` and any error becomes "Command execution failed" |
| `CommandBus.New` | src/command_bus.rs:58-62 | A new bus has no handlers |
| `CommandBus.RegisterHandler` | src/command_bus.rs:64-71 | The type's tag is bound to the new handler, replacing any earlier one. Other bindings are unchanged and every handler stays under its own type's tag |
| `CommandBus.Send` | src/command_bus.rs:78-83 | An unregistered type fails with "No handler registered for command" and calls nothing. A registered type calls exactly its bound handler, once, with the command |
| `CommandBus.NoTypeMismatch` | src/command_bus.rs:41 | On a bus built by `new` and `register_handler`, `send` never fails with "Type mismatch" |
| `CommandBus.NewBusRefuses` | src/command_bus.rs:79-80 | A new bus refuses every command without calling anything |
| `CommandBus.DispatchCorrectness` | src/command_bus.rs:64-83 | After registering a handler for A only, a B command is refused and an A command reaches exactly that handler |
| `CommandBus.LastRegistrationWins` | src/command_bus.rs:70 | After two registrations for one type, `send` calls the second handler, and only it, and its outcome is that handler's outcome |
| `QueryBus.ErasedHandle` | src/query_bus.rs:38-48 | A box of the wrong type fails with "Type mismatch" and calls nothing. Otherwise the inner handler is called once; its error becomes "Query execution failed" and its result is boxed at the handler's result type |
| `QueryBus.New` | src/query_bus.rs:60-64 | A new bus has no handlers |
| `QueryBus.RegisterHandler` | src/query_bus.rs:66-73 | The query type's tag is bound to the new handler, replacing any earlier one; other bindings are unchanged |
| `QueryBus.Send` | src/query_bus.rs:80-87 | An unregistered type fails with "No handler registered for query" and calls nothing. Otherwise the bound handler is called once. Its result comes back unchanged when the result types agree and fails with "Result type mismatch" when they differ |
| `QueryBus.NewBusRefuses` | src/query_bus.rs:81-82 | A new bus refuses every query without calling anything |
| `QueryBus.RegisteredRoundTrip` | src/query_bus.rs:84-86 | After registering a handler for Q, sending a Q calls exactly it, once. The result is the handler's own result, since box then downcast is the identity, or the flattened failure |
| `QueryBus.NoTypeMismatch` | src/query_bus.rs:41 | On a bus built by `new` and `register_handler`, `send` never fails with "Type mismatch" |
| `EventBus.ErasedHandle` | src/event_bus.rs:19-25 | A subscriber's success, given the envelopes it was handed before, passes through; any error becomes "Event handler failed" |
| `EventBus.New` | src/event_bus.rs:36-40 | A new bus has no subscribers |
| `EventBus.Subscribe` | src/event_bus.rs:56-58 | The new subscriber is placed last and the others keep their order |
| `EventBus.Publish` | src/event_bus.rs:47-54 | The calls follow the events-outer, subscribers-inner order. Publish succeeds iff every subscriber accepts every event, and then every call in that order was made (`EventBus.ScheduleLength` counts them). Otherwise the last call made is the first failure in that order, every earlier call succeeded, no later call was made and the error is "Event handler failed". Whether a call succeeds may depend on the envelopes that subscriber was handed before it. Afterwards each subscriber has been handed exactly the events it was called with: all of them on success, and on failure the failing event for the subscribers up to the failing one and only the earlier events for the rest |
| `EventBus.RepeatedEnvelopeRejected` | src/event_bus.rs:47-54 | A subscriber that refuses an envelope it was already handed (a stateful projection, src/event_handler.rs:28-39) makes publishing the same envelope twice fail on the second call, after both calls were made |
| `EventBus.Schedule` | src/event_bus.rs:48-53 | The complete delivery order for n events and m subscribers, events outer and subscribers inner. `EventBus.ScheduleLength`, `EventBus.ScheduleIndex` and `EventBus.TwoByTwo` state its shape, and `EventBus.Publish` is checked against it |
| `EventBus.ScheduleLength` | src/event_bus.rs:48-49 | The full delivery order has \|events\| × \|subscribers\| calls |
| `EventBus.ScheduleIndex` | src/event_bus.rs:48-50 | Event i reaches subscriber j at position i·m + j of the full delivery order |
| `EventBus.SchedulePrefix` | src/event_bus.rs:48-50 | Publishing the first i events makes a prefix of the calls publishing all of them makes |
| `EventBus.InSchedule` | src/event_bus.rs:48-50 | Every (event, subscriber) pair occurs in the full delivery order |
| `EventBus.TwoByTwo` | src/event_bus.rs:48-50 | Two events and two subscribers are called h1(e1), h2(e1), h1(e2), h2(e2) |

## Left out

- SQL, `sqlx` and transaction mechanics are modelled only by their
  all-or-nothing meaning. The schema DDL of `Migrator::migrate` is backend setup and is not modelled.
- `serde_json` encoding and decoding are abstract fallible steps (the
  `Backend` oracles). A row holds the envelope it encodes, so reading it back
  gives the same envelope; the JSON format is not modelled.
- Integer widths: versions are unbounded naturals. The cast `expected_version as i64`
  and the possible `u64` overflow of `expected_version + i + 1` and
  `version + envelope_count` are not modelled. Each can change an outcome only
  when an id already holds 2^63 or more events. The cast `from_version as i64` in
  `get_events_from_version` is different: any caller can pass a large value. It is
  modelled by `EventStore.GetEventsFromVersionAsWritten` and listed under "## Findings".
- Racing appends are not modelled: appends run one after another. The
  schema's index on `(aggregate_id, version)` is not unique, so two
  transactions that both pass the version check could both commit. The model
  cannot show that.
- async/await, `Send`/`Sync` and the memory side of `Box<dyn Any>` are not modelled.
  Downcasts are tag comparisons.
- `RabbitEventBus` is not modelled: it is a network client, and its `subscribe` only logs.
- `EventMetadata::new` draws a random UUID and reads the clock. Both are
  inputs (`CommandHandling.Fresh`).
- Logging is not modelled.
- `CommandHandlerError::from_event_store_error` and `from_command_error` are implemented by the user. The model takes them as the two distinct constructors of `CommandHandling.HandlerError`, so the kind and the payload of an error are never lost. A user conversion that merges them is not modelled.
- `CommandHandling.LoadAggregate`: its own contract gives only the success condition and the error kind. The loaded value is stated by `CommandHandling.ReplayFromSnapshot`, and only for tables and snapshot stores that satisfy the invariants (`ValidTable`, `SnapshotsConsistent`).
- `ProjectionEventHandler` is not modelled on its own. It passes each envelope's
  event to a projection's `apply`, which may change the projection. An event-bus
  subscriber is a fallible function of the envelope and of every envelope the
  subscriber was handed before, which covers any deterministic projection. It does
  not cover a subscriber that depends on anything else, such as time or I/O.
  `src/event_handler.rs:31` calls `apply`, which takes `&mut self`, from a method
  that only has `&self`. The model takes the evidently intended reading: a
  projection that changes as it applies events.
- The trait declarations (`Aggregate`, `Command`, `Event`, `Query`,
  `QueryHandler`, `Projection`, `Snapshot`, `SnapshotStore`, `EventStore`)
  have no behaviour. They appear only as abstract types and function-valued fields.
- `Framework::setup` in `src/lib.rs` only wires the migrator and is not modelled.
- `Snapshots.SnapshotStore` is one concrete reading of the `SnapshotStore`
  trait: one snapshot per id, overwrite on save, and loads and saves that may fail.
  The source has no implementation to follow.
- `CommandBus.Send`: the handler inside the bus is a pure fallible function. The event-store and snapshot effects of a `CommandHandler` called through the bus are not threaded through the bus model.
- `QueryBus.Send`: the handler inside the bus is a pure fallible function.
- `TypedCommandHandler::new`, `TypedQueryHandler::new` and the `Default`
  impls are folded into `RegisterHandler` and `New`.
- `EventStore.GetEvents`: `ORDER BY version` is modelled by insertion order. The claim that the k-th envelope is the one at version k + 1 is proved only for tables where every log is numbered 1..n (`ValidTable`). The empty table has that shape and every save keeps it (`EventStore.SavePreservesValid`).
- `EventStore.GetEventsFromVersion`: the same. The version and position claims about the rows after `from` are proved only for tables that satisfy `ValidTable`. It reads `from` as the version it names. A `from_version` of 2^63 or more wraps to a negative `i64` in the code and reads every row. That behaviour is modelled separately by `EventStore.GetEventsFromVersionAsWritten` (see "## Findings"), and the command handler uses the intended reading.
- A subscription made while a publish runs is not modelled. `publish` takes `&self`, so the subscriber list cannot change during it, and the model's bus is an immutable value.

## Findings

| source | as written | input that shows it | evidently intended | confidence | as-written member | corrected member |
|---|---|---|---|---|---|---|
| src/event_store_postgres.rs:104 | `.bind(from_version as i64)` wraps a `u64` of 2^63 or more to a negative `i64`, so `version > $2` selects every row | one event stored at version 1, `from_version = 2^63`: every event comes back | the events after version `from_version`, which is none here | medium, not executed | `EventStore.GetEventsFromVersionAsWritten` (`EventStore.WrappedBoundExample`, `EventStore.WrappedBoundReadsAll`) | `EventStore.GetEventsFromVersion` (on a table numbered 1..n, a bound at or past n gives no events) |

=== FILE: aggregates.dfy ===
/** The `Aggregate` trait as an abstract state: a default value, an `apply`
    that folds one event in, and a `version` read-out. The framework never
    calls `increment_version` itself, so that `apply` advances the version by
    one is a hypothesis about the aggregate (`Lawful`), not something the
    handler does. */
module Aggregates {

  datatype AggregateKind<!S, !E> = AggregateKind(
    default: S,
    apply: (S, E) -> S,
    version: S -> nat)

  /** The behaviour every aggregate is expected to have: the default state is
      at version 0 and each applied event advances the version by exactly one. */
  ghost predicate Lawful<S(!new), E(!new)>(k: AggregateKind<S, E>)
  {
    && k.version(k.default) == 0
    && forall s, e :: k.version(k.apply(s, e)) == k.version(s) + 1
  }

  /** `for e in events { aggregate.apply(e) }`: events are applied left to right. */
  function Fold<S, E>(k: AggregateKind<S, E>, s: S, events: seq<E>): S
    decreases |events|
  {
    if |events| == 0 then s else Fold(k, k.apply(s, events[0]), events[1..])
  }

  /** Full replay of a history from the default aggregate. */
  function Replay<S, E>(k: AggregateKind<S, E>, events: seq<E>): S
  {
    Fold(k, k.default, events)
  }

  /** Folding a concatenation is folding the first part, then the second:
      replay can be resumed from any intermediate state. */
  lemma {:induction false} FoldAppend<S, E>(k: AggregateKind<S, E>, s: S, a: seq<E>, b: seq<E>)
    ensures Fold(k, s, a + b) == Fold(k, Fold(k, s, a), b)
    decreases |a|
  {
    if |a| == 0 {
      assert a + b == b;
    } else {
      assert (a + b)[1..] == a[1..] + b;
      FoldAppend(k, k.apply(s, a[0]), a[1..], b);
    }
  }

  /** Under the aggregate hypothesis, folding N events advances the version by N;
      in particular a full replay of N events ends at version N. */
  lemma {:induction false} FoldVersion<S(!new), E(!new)>(k: AggregateKind<S, E>, s: S, events: seq<E>)
    requires Lawful(k)
    ensures k.version(Fold(k, s, events)) == k.version(s) + |events|
    decreases |events|
  {
    if |events| != 0 {
      FoldVersion(k, k.apply(s, events[0]), events[1..]);
    }
  }

  /** Replay determinism: the version after replaying a history equals its length. */
  lemma ReplayVersion<S(!new), E(!new)>(k: AggregateKind<S, E>, events: seq<E>)
    requires Lawful(k)
    ensures k.version(Replay(k, events)) == |events|
  {
    FoldVersion(k, k.default, events);
  }
}

=== FILE: any.dfy ===
/** Run-time type identity as used by the two dispatch routers: `TypeId` and
    `Box<dyn Any>`. A boxed value remembers the tag of the type it was boxed
    at, and a downcast is a comparison of tags. */
module Any {
  import opened Results

  /** `std::any::TypeId`: one tag per Rust type. */
  datatype TypeId = TypeId(name: string)

  /** `Box<dyn Any>`: a value of the common value domain `V` together with
      the tag of the static type it was boxed at. */
  datatype Boxed<V> = Boxed(tag: TypeId, value: V)

  /** `Box::<dyn Any>::downcast::<T>()`: succeeds exactly when the box was
      made at type `T`, and then gives back the value unchanged. */
  function Downcast<V>(b: Boxed<V>, target: TypeId): (r: Option<V>)
    ensures r.Some? <==> b.tag == target
    ensures r.Some? ==> r.value == b.value
  {
    if b.tag == target then Some(b.value) else None
  }

  /** Boxing at a type and downcasting to the same type is the identity;
      downcasting to any other type fails. */
  lemma BoxThenDowncast<V>(t: TypeId, u: TypeId, v: V)
    ensures Downcast(Boxed(t, v), t) == Some(v)
    ensures u != t ==> Downcast(Boxed(t, v), u) == None
  {
  }

  /** The message both routers use when a boxed input is not of the type its
      handler expects. */
  const TypeMismatch: string := "Type mismatch"

  /** A call of a registered handler: which handler, with which argument.
      Handlers are told apart by an identity the caller gives them. */
  datatype Invocation<V> = Invocation(handler: nat, argument: V)

  /** The outcome of a dispatch together with the handler calls it made. */
  datatype Dispatched<R, V> = Dispatched(result: Result<R, string>, calls: seq<Invocation<V>>)
}

=== FILE: command_bus.dfy ===
/** `InMemoryCommandBus`: a map from a command type's `TypeId` to the
    handler registered for it, and `send`, which looks the handler up by the
    command's type and hands it the boxed command. */
module CommandBus {
  import opened Results
  import opened Any

  const NoHandlerRegistered: string := "No handler registered for command"
  const CommandExecutionFailed: string := "Command execution failed"

  /** A `CommandHandler<C>` as the bus sees it: an identity and a fallible
      `handle`. What the handler does inside is not the bus's concern. */
  datatype InnerHandler<!V> = InnerHandler(id: nat, handle: V -> Result<(), string>)

  /** `TypedCommandHandler<C, H>`: a handler together with the command type C it expects. */
  datatype TypedCommandHandler<!V> = TypedCommandHandler(command: TypeId, inner: InnerHandler<V>)

  datatype InMemoryCommandBus<!V> = InMemoryCommandBus(handlers: map<TypeId, TypedCommandHandler<V>>)

  /** Every registered handler sits under the tag of the command type it expects. */
  ghost predicate WellKeyed<V>(bus: InMemoryCommandBus<V>)
  {
    forall t :: t in bus.handlers ==> bus.handlers[t].command == t
  }

  /** `ErasedCommandHandler::handle` of a `TypedCommandHandler`: downcast the
      box, run the inner handler, and flatten any error it reports. */
  function ErasedHandle<V>(h: TypedCommandHandler<V>, boxed: Boxed<V>): (d: Dispatched<(), V>)
    ensures boxed.tag != h.command ==> d == Dispatched(Err(TypeMismatch), [])
    ensures boxed.tag == h.command ==>
              && d.calls == [Invocation(h.inner.id, boxed.value)]
              && (d.result.Ok? <==> h.inner.handle(boxed.value).Ok?)
              && (d.result.Err? ==> d.result.error == CommandExecutionFailed)
  {
    match Downcast(boxed, h.command)
    case None => Dispatched(Err(TypeMismatch), [])
    case Some(c) =>
      var outcome := match h.inner.handle(c)
        case Ok(_) => Ok(())
        case Err(_) => Err(CommandExecutionFailed);
      Dispatched(outcome, [Invocation(h.inner.id, c)])
  }

  /** `InMemoryCommandBus::new`. */
  function New<V>(): (bus: InMemoryCommandBus<V>)
    ensures |bus.handlers| == 0
    ensures WellKeyed(bus)
  {
    InMemoryCommandBus(map[])
  }

  /** `register_handler::<C, H>(handler)`: binds C's tag to the handler,
      replacing any earlier binding, and leaves every other binding alone. */
  function RegisterHandler<V>(bus: InMemoryCommandBus<V>, c: TypeId, h: InnerHandler<V>): (bus': InMemoryCommandBus<V>)
    ensures bus'.handlers.Keys == bus.handlers.Keys + {c}
    ensures bus'.handlers[c].inner == h
    ensures forall t :: t in bus.handlers && t != c ==> bus'.handlers[t] == bus.handlers[t]
    ensures WellKeyed(bus) ==> WellKeyed(bus')
  {
    InMemoryCommandBus(bus.handlers[c := TypedCommandHandler(c, h)])
  }

  /** `send::<C>(command)`: a command whose type has no handler is refused
      without calling anything; otherwise the handler bound to its type is
      called once with it, and its success or (flattened) failure returned. */
  function Send<V>(bus: InMemoryCommandBus<V>, c: TypeId, command: V): (d: Dispatched<(), V>)
    ensures c !in bus.handlers ==> d == Dispatched(Err(NoHandlerRegistered), [])
    ensures WellKeyed(bus) && c in bus.handlers ==>
              var inner := bus.handlers[c].inner;
              && d.calls == [Invocation(inner.id, command)]
              && (d.result.Ok? <==> inner.handle(command).Ok?)
              && (d.result.Err? ==> d.result.error == CommandExecutionFailed)
  {
    if c !in bus.handlers then Dispatched(Err(NoHandlerRegistered), [])
    else ErasedHandle(bus.handlers[c], Boxed(c, command))
  }

  /** On a bus built by `new` and `register_handler`, the downcast inside
      `send` cannot fail. */
  lemma NoTypeMismatch<V>(bus: InMemoryCommandBus<V>, c: TypeId, command: V)
    requires WellKeyed(bus)
    ensures Send(bus, c, command).result != Err(TypeMismatch)
  {
  }

  /** A new bus refuses every command. */
  lemma NewBusRefuses<V>(c: TypeId, command: V)
    ensures Send(New<V>(), c, command) == Dispatched(Err(NoHandlerRegistered), [])
  {
  }

  /** Registering a handler for one type routes exactly that type to it and
      leaves every other unregistered type refused. */
  lemma DispatchCorrectness<V>(a: TypeId, b: TypeId, h: InnerHandler<V>, command: V)
    requires a != b
    ensures var bus := RegisterHandler(New<V>(), a, h);
            && Send(bus, b, command) == Dispatched(Err(NoHandlerRegistered), [])
            && Send(bus, a, command).calls == [Invocation(h.id, command)]
            && (Send(bus, a, command).result.Ok? <==> h.handle(command).Ok?)
  {
  }

  /** The last registration for a type wins. */
  lemma LastRegistrationWins<V>(bus: InMemoryCommandBus<V>, c: TypeId, h1: InnerHandler<V>, h2: InnerHandler<V>, command: V)
    requires WellKeyed(bus)
    ensures var d := Send(RegisterHandler(RegisterHandler(bus, c, h1), c, h2), c, command);
            && d.calls == [Invocation(h2.id, command)]
            && (d.result.Ok? <==> h2.handle(command).Ok?)
            && (d.result.Err? ==> d.result.error == CommandExecutionFailed)
  {
    var bus1 := RegisterHandler(bus, c, h1);
    var bus2 := RegisterHandler(bus1, c, h2);
    assert WellKeyed(bus2);
  }
}

=== FILE: command_handler.dfy ===
/** `CommandHandler::handle`: load the snapshot (or start from the default
    aggregate), fold the events stored after it, let the command decide,
    append the new events under the pre-command version as the optimistic
    guard, and every tenth version write a snapshot of the aggregate the
    command was decided on. */
module CommandHandling {
  import opened Results
  import opened Metadata
  import opened Aggregates
  import opened EventStore
  import opened Snapshots

  /** The literal `10` of the snapshot cadence. */
  const SnapshotInterval: nat := 10

  /** A command: the aggregate it targets and its pure decision function
      (`Command::execute`). */
  datatype Command<!S, E, CE> = Command(aggregateId: AggregateId, execute: S -> Result<seq<E>, CE>)

  /** The two kinds of `CommandHandlerError`. */
  datatype HandlerError<+CE> = FromEventStore(store: StoreError) | FromCommand(command: CE)

  /** What `uuid::Uuid::new_v4` and `EventMetadata::new` draw during one
      invocation: the correlation id, and the event id and timestamp of the
      i-th envelope. */
  datatype Fresh = Fresh(correlationId: Uuid, eventId: nat -> Uuid, timestamp: nat -> Timestamp)

  /** The writes an invocation attempts, in the order it attempts them. */
  datatype Effect<S, E> =
    | SaveEventsCall(envelopes: seq<EventEnvelope<E>>, expected: nat)
    | SaveSnapshotCall(state: S)

  datatype Handled<S, E, CE> = Handled(
    result: Result<(), HandlerError<CE>>,
    events: Table<E>,
    snapshots: SnapshotStore<S>,
    effects: seq<Effect<S, E>>)

  /** The full event history of an aggregate id, oldest first. */
  function History<E>(t: Table<E>, id: AggregateId): seq<E>
  {
    EventsOf(Envelopes(LogOf(t, id)))
  }

  /** A starting state is faithful when it is the replay of the first
      `version` events of the history. */
  ghost predicate FaithfulStart<S(!new), E(!new)>(k: AggregateKind<S, E>, t: Table<E>, id: AggregateId, s: S)
  {
    k.version(s) <= |LogOf(t, id)| && s == Replay(k, History(t, id)[..k.version(s)])
  }

  /** Every saved snapshot is faithful to its aggregate's history. */
  ghost predicate SnapshotsConsistent<S(!new), E(!new)>(k: AggregateKind<S, E>, t: Table<E>, st: SnapshotStore<S>)
  {
    forall id :: id in st.saved ==> FaithfulStart(k, t, id, st.saved[id])
  }

  /** `get_snapshot(..).await.ok().flatten().unwrap_or_default()`: a missing
      snapshot and a failed load both fall back to the default aggregate. */
  function StartingAggregate<S, E>(k: AggregateKind<S, E>, st: SnapshotStore<S>, id: AggregateId): (s: S)
    ensures st.loadOk && id in st.saved ==> s == st.saved[id]
    ensures !st.loadOk || id !in st.saved ==> s == k.default
  {
    UnwrapOr(OkFlatten(GetSnapshot(st, id)), k.default)
  }

  /** The state the command is decided on: the starting aggregate with every
      event stored after its version folded in, in order. Loading succeeds
      exactly when the read query runs and every row after the starting
      version decodes; a read failure is a store error, never a conflict.
      What the loaded state is, is `ReplayFromSnapshot`. */
  function LoadAggregate<S, E>(k: AggregateKind<S, E>, t: Table<E>, b: Backend<E>, st: SnapshotStore<S>, id: AggregateId): (r: Result<S, StoreError>)
    ensures r.Ok? <==> b.fetchOk && forall j :: 0 <= j < |LogOf(t, id)| && LogOf(t, id)[j].version > k.version(StartingAggregate(k, st, id)) ==>
                                      b.decodeOk(LogOf(t, id)[j])
    ensures r.Err? ==> r.error != ConcurrencyConflict
  {
    var start := StartingAggregate(k, st, id);
    match GetEventsFromVersion(t, b, id, k.version(start))
    case Err(e) => Err(e)
    case Ok(tail) => Ok(Fold(k, start, EventsOf(tail)))
  }

  /** The new events wrapped in envelopes, one per event, all with the same
      correlation id and no causation id. */
  function Wrap<E>(events: seq<E>, ids: Fresh): (envs: seq<EventEnvelope<E>>)
    ensures EventsOf(envs) == events
    ensures forall i :: 0 <= i < |envs| ==>
              envs[i].metadata.correlationId == ids.correlationId && envs[i].metadata.causationId == None
  {
    var envs := seq(|events|, i requires 0 <= i < |events| =>
      EventEnvelope(events[i], NewMetadata(ids.correlationId, None, ids.eventId(i), ids.timestamp(i))));
    assert forall i :: 0 <= i < |envs| ==> envs[i].metadata == NewMetadata(ids.correlationId, None, ids.eventId(i), ids.timestamp(i));
    envs
  }

  /** `(aggregate.version() + envelope_count) % 10 == 0`. */
  predicate SnapshotDue(version: nat, count: nat)
  {
    (version + count) % SnapshotInterval == 0
  }

  /** `CommandHandler::handle(command)`. */
  function Handle<S, E, CE>(k: AggregateKind<S, E>, cmd: Command<S, E, CE>, t: Table<E>, b: Backend<E>,
                            st: SnapshotStore<S>, ids: Fresh): (h: Handled<S, E, CE>)
    // a failed invocation leaves the event log and the snapshots as they were
    ensures h.result.Err? ==> h.events == t && h.snapshots == st
    // the append comes first, a snapshot write only after it succeeded
    ensures |h.effects| <= 2
    ensures |h.effects| > 0 ==> h.effects[0].SaveEventsCall?
    ensures |h.effects| == 2 ==> h.effects[1].SaveSnapshotCall? && h.result.Ok?
    ensures h.snapshots != st ==> |h.effects| == 2
    // the recorded snapshot write is the one performed
    ensures |h.effects| == 2 ==> h.snapshots == SaveSnapshot(st, cmd.aggregateId, h.effects[1].state).1
  {
    match LoadAggregate(k, t, b, st, cmd.aggregateId)
    case Err(e) => Handled(Err(FromEventStore(e)), t, st, [])
    case Ok(agg) => DecideAndPersist(k, cmd, t, b, st, ids, agg)
  }

  /** The steps of `handle` after loading: decide on the loaded aggregate,
      append, and snapshot on the cadence. */
  function DecideAndPersist<S, E, CE>(k: AggregateKind<S, E>, cmd: Command<S, E, CE>, t: Table<E>, b: Backend<E>,
                            st: SnapshotStore<S>, ids: Fresh, agg: S): (h: Handled<S, E, CE>)
    ensures h.result.Err? ==> h.events == t && h.snapshots == st
    ensures |h.effects| <= 2
    ensures |h.effects| > 0 ==> h.effects[0].SaveEventsCall?
    ensures |h.effects| == 2 ==> h.effects[1].SaveSnapshotCall? && h.result.Ok?
    ensures h.snapshots != st ==> |h.effects| == 2
    ensures |h.effects| == 2 ==> h.snapshots == SaveSnapshot(st, cmd.aggregateId, h.effects[1].state).1
  {
    var id := cmd.aggregateId;
    match cmd.execute(agg)
    case Err(ce) => Handled(Err(FromCommand(ce)), t, st, [])
    case Ok(newEvents) =>
      if |newEvents| == 0 then Handled(Ok(()), t, st, [])
      else
        var envs := Wrap(newEvents, ids);
        var expected := k.version(agg);
        var save := SaveEvents(t, b, id, envs, expected);
        var saveCall := SaveEventsCall(envs, expected);
        match save.result
        case Err(e) => Handled(Err(FromEventStore(e)), t, st, [saveCall])
        case Ok(_) =>
          if SnapshotDue(expected, |envs|) then
            // the outcome of the snapshot write is dropped
            var (_, st') := SaveSnapshot(st, id, agg);
            Handled(Ok(()), save.table, st', [saveCall, SaveSnapshotCall(agg)])
          else
            Handled(Ok(()), save.table, st, [saveCall])
  }

  /** The events stored after `from` are the history without its first `from` events. */
  lemma TailIsHistorySuffix<E>(t: Table<E>, b: Backend<E>, id: AggregateId, from: nat)
    requires ValidTable(t) && from <= |LogOf(t, id)|
    requires GetEventsFromVersion(t, b, id, from).Ok?
    ensures EventsOf(GetEventsFromVersion(t, b, id, from).value) == History(t, id)[from..]
  {
    var tail := GetEventsFromVersion(t, b, id, from).value;
    var h := History(t, id);
    assert |EventsOf(tail)| == |h[from..]|;
    forall j | 0 <= j < |tail|
      ensures EventsOf(tail)[j] == h[from..][j]
    {
      assert LogOf(t, id)[from + j] == Row(from + j + 1, tail[j]);
    }
  }

  /** The starting aggregate is faithful: either the default aggregate, which
      is the replay of nothing, or a consistent snapshot. */
  lemma StartIsFaithful<S(!new), E(!new)>(k: AggregateKind<S, E>, t: Table<E>, st: SnapshotStore<S>, id: AggregateId)
    requires Lawful(k) && SnapshotsConsistent(k, t, st)
    ensures FaithfulStart(k, t, id, StartingAggregate(k, st, id))
  {
    if !st.loadOk || id !in st.saved {
      assert History(t, id)[..0] == [];
    }
  }

  /** Snapshot plus tail is full replay: whatever consistent snapshot the
      handler starts from (or none), the state the command is decided on is
      the replay of the whole history from the default aggregate, at a
      version equal to the number of stored events. */
  lemma ReplayFromSnapshot<S(!new), E(!new)>(k: AggregateKind<S, E>, t: Table<E>, b: Backend<E>, st: SnapshotStore<S>, id: AggregateId)
    requires Lawful(k) && ValidTable(t) && SnapshotsConsistent(k, t, st)
    requires LoadAggregate(k, t, b, st, id).Ok?
    ensures LoadAggregate(k, t, b, st, id).value == Replay(k, History(t, id))
    ensures k.version(LoadAggregate(k, t, b, st, id).value) == |LogOf(t, id)|
  {
    var start := StartingAggregate(k, st, id);
    StartIsFaithful(k, t, st, id);
    var v := k.version(start);
    var read := GetEventsFromVersion(t, b, id, v);
    assert read.Ok?;
    var h := History(t, id);
    assert LoadAggregate(k, t, b, st, id).value == Fold(k, start, EventsOf(read.value));
    TailIsHistorySuffix(t, b, id, v);
    assert start == Fold(k, k.default, h[..v]);
    FoldAppend(k, k.default, h[..v], h[v..]);
    SplitAt(h, v);
    ReplayVersion(k, h);
  }

  lemma SplitAt<T>(s: seq<T>, i: nat)
    requires i <= |s|
    ensures s[..i] + s[i..] == s
  {
  }

  /** Every stored row of the id can be read back. */
  ghost predicate ReadsSucceed<E>(t: Table<E>, b: Backend<E>, id: AggregateId)
  {
    b.fetchOk && forall k :: 0 <= k < |LogOf(t, id)| ==> b.decodeOk(LogOf(t, id)[k])
  }

  /** Snapshot transparency: two consistent snapshot stores (one may be empty
      or failing) lead to the same outcome, the same event log and the same
      attempted writes; only the snapshot store itself may differ. */
  lemma SnapshotTransparency<S(!new), E(!new), CE>(k: AggregateKind<S, E>, cmd: Command<S, E, CE>, t: Table<E>, b: Backend<E>,
                                                   st1: SnapshotStore<S>, st2: SnapshotStore<S>, ids: Fresh)
    requires Lawful(k) && ValidTable(t) && ReadsSucceed(t, b, cmd.aggregateId)
    requires SnapshotsConsistent(k, t, st1) && SnapshotsConsistent(k, t, st2)
    ensures var h1 := Handle(k, cmd, t, b, st1, ids);
            var h2 := Handle(k, cmd, t, b, st2, ids);
            h1.result == h2.result && h1.events == h2.events && h1.effects == h2.effects
  {
    var id := cmd.aggregateId;
    var load1 := LoadAggregate(k, t, b, st1, id);
    var load2 := LoadAggregate(k, t, b, st2, id);
    assert load1.Ok? && load2.Ok?;
    ReplayFromSnapshot(k, t, b, st1, id);
    ReplayFromSnapshot(k, t, b, st2, id);
    DecideIgnoresSnapshots(k, cmd, t, b, st1, st2, ids, load1.value);
  }

  /** An aggregate whose state is the number of events applied to it. */
  function Counter(): AggregateKind<nat, int>
  {
    var apply: (nat, int) -> nat := (s: nat, e: int) => s + 1;
    var version: nat -> nat := (s: nat) => s;
    AggregateKind(0, apply, version)
  }

  /** Transparency needs every stored row to decode. For an aggregate that
      counts its events, a log with one undecodable row at version 1, and a
      command that decides nothing, a snapshot at version 1 skips that row and
      the invocation succeeds; starting from the empty snapshot store reads it
      and fails with a Serialization error. */
  lemma SnapshotHidesUndecodableRow(env: EventEnvelope<int>, ids: Fresh)
    ensures var cmd: Command<nat, int, ()> := Command("a", (s: nat) => Ok([]));
            var t := map["a" := [Row(1, env)]];
            var b := Backend(true, true, _ => true, _ => true, (_, _) => true, true, true, _ => false);
            var st := SnapshotStore(map["a" := 1], true, true);
            && Lawful(Counter()) && ValidTable(t)
            && SnapshotsConsistent(Counter(), t, st) && SnapshotsConsistent(Counter(), t, EmptySnapshots())
            && !ReadsSucceed(t, b, "a")
            && Handle(Counter(), cmd, t, b, st, ids).result == Ok(())
            && Handle(Counter(), cmd, t, b, EmptySnapshots(), ids).result == Err(FromEventStore(Serialization))
  {
    var k := Counter();
    var t := map["a" := [Row(1, env)]];
    var log := LogOf(t, "a");
    assert History(t, "a")[..1] == [env.event];
    assert [env.event][1..] == [];
    assert Replay(k, [env.event]) == Fold(k, k.apply(0, env.event), []) == 1;
    assert RowsAfter(log, 1) == [];
    assert RowsAfter(log, 0) == log;
  }

  /** What happens after loading does not depend on the snapshot store,
      except for the snapshot store itself. */
  lemma DecideIgnoresSnapshots<S, E, CE>(k: AggregateKind<S, E>, cmd: Command<S, E, CE>, t: Table<E>, b: Backend<E>,
                                         st1: SnapshotStore<S>, st2: SnapshotStore<S>, ids: Fresh, agg: S)
    ensures var h1 := DecideAndPersist(k, cmd, t, b, st1, ids, agg);
            var h2 := DecideAndPersist(k, cmd, t, b, st2, ids, agg);
            h1.result == h2.result && h1.events == h2.events && h1.effects == h2.effects
  {
  }

  /** A decision with no events is a successful no-op: no append, no snapshot. */
  lemma NoEventsNoWrites<S, E, CE>(k: AggregateKind<S, E>, cmd: Command<S, E, CE>, t: Table<E>, b: Backend<E>,
                                  st: SnapshotStore<S>, ids: Fresh)
    requires LoadAggregate(k, t, b, st, cmd.aggregateId).Ok?
    requires cmd.execute(LoadAggregate(k, t, b, st, cmd.aggregateId).value) == Ok([])
    ensures Handle(k, cmd, t, b, st, ids) == Handled(Ok(()), t, st, [])
  {
  }

  /** A non-empty decision is appended as one envelope per event, in order,
      sharing one correlation id, with the pre-command version as the guard;
      the invocation's outcome and new log are that append's, and under the
      invariants the guard is the stored history's length. */
  lemma AppendsDecision<S(!new), E(!new), CE>(k: AggregateKind<S, E>, cmd: Command<S, E, CE>, t: Table<E>, b: Backend<E>,
                                              st: SnapshotStore<S>, ids: Fresh)
    requires LoadAggregate(k, t, b, st, cmd.aggregateId).Ok?
    requires var agg := LoadAggregate(k, t, b, st, cmd.aggregateId).value;
             cmd.execute(agg).Ok? && |cmd.execute(agg).value| > 0
    ensures var agg := LoadAggregate(k, t, b, st, cmd.aggregateId).value;
            var h := Handle(k, cmd, t, b, st, ids);
            && |h.effects| > 0
            && h.effects[0].expected == k.version(agg)
            && EventsOf(h.effects[0].envelopes) == cmd.execute(agg).value
            && (forall i, j :: 0 <= i < |h.effects[0].envelopes| && 0 <= j < |h.effects[0].envelopes| ==>
                  h.effects[0].envelopes[i].metadata.correlationId == h.effects[0].envelopes[j].metadata.correlationId)
            && (forall i :: 0 <= i < |h.effects[0].envelopes| ==> h.effects[0].envelopes[i].metadata.causationId.None?)
    // the outcome and the new log are those of that save: its failure is reported as a store error
    ensures var h := Handle(k, cmd, t, b, st, ids);
            var save := SaveEvents(t, b, cmd.aggregateId, h.effects[0].envelopes, h.effects[0].expected);
            && h.events == save.table
            && (save.result.Err? ==> h.result == Err(FromEventStore(save.result.error)) && |h.effects| == 1)
            && (save.result.Ok? ==> h.result.Ok?)
    ensures Lawful(k) && ValidTable(t) && SnapshotsConsistent(k, t, st) ==>
              Handle(k, cmd, t, b, st, ids).effects[0].expected == |LogOf(t, cmd.aggregateId)|
  {
    if Lawful(k) && ValidTable(t) && SnapshotsConsistent(k, t, st) {
      ReplayFromSnapshot(k, t, b, st, cmd.aggregateId);
    }
  }

  /** Store failures and command rejections stay apart: a rejection is
      reported as a command error with nothing written, a read failure as a
      store error with nothing attempted, and a failed append as a store error
      with no snapshot attempted. */
  lemma ErrorKinds<S, E, CE>(k: AggregateKind<S, E>, cmd: Command<S, E, CE>, t: Table<E>, b: Backend<E>,
                             st: SnapshotStore<S>, ids: Fresh)
    ensures var h := Handle(k, cmd, t, b, st, ids);
            var load := LoadAggregate(k, t, b, st, cmd.aggregateId);
            && (load.Err? ==> h.result == Err(FromEventStore(load.error)) && h.effects == [])
            && (h.result.Err? && h.result.error.FromCommand? <==> load.Ok? && cmd.execute(load.value).Err?)
            && (h.result.Err? && h.result.error.FromCommand? ==> h.result.error.command == cmd.execute(load.value).error && h.effects == [])
            && (h.result.Err? && h.result.error.FromEventStore? && |h.effects| > 0 ==> |h.effects| == 1)
  {
  }

  /** The snapshot cadence: after a successful append, a snapshot write is
      attempted exactly when the post-append version is a multiple of ten; it
      stores the aggregate as it was before the command's events, and its
      failure does not change the successful result. */
  lemma SnapshotCadence<S(!new), E(!new), CE>(k: AggregateKind<S, E>, cmd: Command<S, E, CE>, t: Table<E>, b: Backend<E>,
                                              st: SnapshotStore<S>, ids: Fresh)
    requires LoadAggregate(k, t, b, st, cmd.aggregateId).Ok?
    requires var agg := LoadAggregate(k, t, b, st, cmd.aggregateId).value;
             cmd.execute(agg).Ok? && |cmd.execute(agg).value| > 0
    requires var h := Handle(k, cmd, t, b, st, ids); h.result.Ok?
    ensures var agg := LoadAggregate(k, t, b, st, cmd.aggregateId).value;
            var n := |cmd.execute(agg).value|;
            var h := Handle(k, cmd, t, b, st, ids);
            && (|h.effects| == 2 <==> (k.version(agg) + n) % 10 == 0)
            && (|h.effects| == 2 ==> h.effects[1] == SaveSnapshotCall(agg))
            && h.snapshots == (if |h.effects| == 2 then SaveSnapshot(st, cmd.aggregateId, agg).1 else st)
            && CurrentVersion(h.events, cmd.aggregateId) == k.version(agg) + n
  {
    var agg := LoadAggregate(k, t, b, st, cmd.aggregateId).value;
    var envs := Wrap(cmd.execute(agg).value, ids);
    SaveAdvancesVersion(t, b, cmd.aggregateId, envs, k.version(agg));
  }

  /** A prefix of the history is not changed by appending to the log. */
  lemma HistoryPrefixStable<E>(t: Table<E>, t': Table<E>, id: AggregateId, j: nat)
    requires |LogOf(t, id)| <= |LogOf(t', id)| && LogOf(t', id)[..|LogOf(t, id)|] == LogOf(t, id)
    requires j <= |LogOf(t, id)|
    ensures History(t', id)[..j] == History(t, id)[..j]
  {
    forall i | 0 <= i < j
      ensures History(t', id)[i] == History(t, id)[i]
    {
      assert LogOf(t', id)[i] == LogOf(t, id)[i];
    }
  }

  /** A faithful starting state stays faithful when rows are appended to the log. */
  lemma FaithfulAfterAppend<S(!new), E(!new)>(k: AggregateKind<S, E>, t: Table<E>, t': Table<E>, id: AggregateId, rows: Log<E>, s: S)
    requires LogOf(t', id) == LogOf(t, id) + rows
    requires FaithfulStart(k, t, id, s)
    ensures FaithfulStart(k, t', id, s)
  {
    assert LogOf(t', id)[..|LogOf(t, id)|] == LogOf(t, id);
    HistoryPrefixStable(t, t', id, k.version(s));
  }

  /** The aggregate a command was decided on, saved as a snapshot, is
      faithful to the history after the append. */
  lemma DecidedStateFaithful<S(!new), E(!new)>(k: AggregateKind<S, E>, t: Table<E>, t': Table<E>, id: AggregateId, rows: Log<E>, agg: S)
    requires LogOf(t', id) == LogOf(t, id) + rows
    requires agg == Replay(k, History(t, id)) && k.version(agg) == |LogOf(t, id)|
    ensures FaithfulStart(k, t', id, agg)
  {
    assert History(t, id)[..|LogOf(t, id)|] == History(t, id);
    assert FaithfulStart(k, t, id, agg);
    FaithfulAfterAppend(k, t, t', id, rows, agg);
  }

  /** The steps after loading keep both invariants when the loaded aggregate
      is the replay of the full history. */
  lemma DecidePreservesInvariants<S(!new), E(!new), CE>(k: AggregateKind<S, E>, cmd: Command<S, E, CE>, t: Table<E>, b: Backend<E>,
                                                        st: SnapshotStore<S>, ids: Fresh, agg: S)
    requires Lawful(k) && ValidTable(t) && SnapshotsConsistent(k, t, st)
    requires agg == Replay(k, History(t, cmd.aggregateId)) && k.version(agg) == |LogOf(t, cmd.aggregateId)|
    ensures var h := DecideAndPersist(k, cmd, t, b, st, ids, agg);
            ValidTable(h.events) && SnapshotsConsistent(k, h.events, h.snapshots)
  {
    var id := cmd.aggregateId;
    var h := DecideAndPersist(k, cmd, t, b, st, ids, agg);
    if h.result.Ok? && h.effects != [] {
      var envs := Wrap(cmd.execute(agg).value, ids);
      var v := k.version(agg);
      var rows := Stamp(envs, v);
      SavePreservesValid(t, b, id, envs, v);
      assert h.events == SaveEvents(t, b, id, envs, v).table;
      assert |rows| > 0;
      var t' := h.events;
      assert t' == t[id := LogOf(t, id) + rows];
      forall other | other in h.snapshots.saved
        ensures FaithfulStart(k, t', other, h.snapshots.saved[other])
      {
        var s := h.snapshots.saved[other];
        if other != id {
          assert s == st.saved[other];
          assert LogOf(t', other) == LogOf(t, other);
        } else if other in st.saved && s == st.saved[other] {
          FaithfulAfterAppend(k, t, t', id, rows, s);
        } else {
          assert s == agg;
          DecidedStateFaithful(k, t, t', id, rows, agg);
        }
      }
    }
  }

  /** Handling a command keeps both invariants: every log stays contiguous and
      every saved snapshot stays the replay of a prefix of its history, the
      newly written one included. */
  lemma HandlePreservesInvariants<S(!new), E(!new), CE>(k: AggregateKind<S, E>, cmd: Command<S, E, CE>, t: Table<E>, b: Backend<E>,
                                                        st: SnapshotStore<S>, ids: Fresh)
    requires Lawful(k) && ValidTable(t) && SnapshotsConsistent(k, t, st)
    ensures var h := Handle(k, cmd, t, b, st, ids);
            ValidTable(h.events) && SnapshotsConsistent(k, h.events, h.snapshots)
  {
    var load := LoadAggregate(k, t, b, st, cmd.aggregateId);
    if load.Ok? {
      ReplayFromSnapshot(k, t, b, st, cmd.aggregateId);
      DecidePreservesInvariants(k, cmd, t, b, st, ids, load.value);
    }
  }

  /** Commands handled one after another never conflict: the guard the
      handler passes is always the stored version, so only the backend's own
      failures can make the append fail. */
  lemma SerialHandlingNeverConflicts<S(!new), E(!new), CE>(k: AggregateKind<S, E>, cmd: Command<S, E, CE>, t: Table<E>, b: Backend<E>,
                                                           st: SnapshotStore<S>, ids: Fresh)
    requires Lawful(k) && ValidTable(t) && SnapshotsConsistent(k, t, st)
    ensures Handle(k, cmd, t, b, st, ids).result != Err(FromEventStore(ConcurrencyConflict))
  {
    var id := cmd.aggregateId;
    if LoadAggregate(k, t, b, st, id).Ok? {
      ReplayFromSnapshot(k, t, b, st, id);
      ContiguousMax(LogOf(t, id));
    }
  }
}

=== FILE: event_bus.dfy ===
/** `InMemoryEventBus`: subscribers in registration order, and a `publish`
    that delivers each event, in order, to every subscriber, in order, and
    stops at the first failure. A delivery is recorded as the pair of the
    event's and the subscriber's positions. */
module EventBus {
  import opened Results
  import opened Metadata

  const EventHandlerFailed: string := "Event handler failed"

  /** An `EventHandler<E>`. Its `handle` takes `&self` and may keep state
      behind it, as a projection folding the events does; that state is
      represented by the envelopes the subscriber has been handed so far,
      and the outcome of a call may depend on them. */
  datatype Subscriber<!E> = Subscriber(
    received: seq<EventEnvelope<E>>,
    handle: (seq<EventEnvelope<E>>, EventEnvelope<E>) -> Result<(), string>)

  datatype InMemoryEventBus<!E> = InMemoryEventBus(handlers: seq<Subscriber<E>>)

  /** The call of subscriber number `handler` with event number `event`. */
  datatype Delivery = Delivery(event: nat, handler: nat)

  /** The blanket `ErasedEventHandler` impl: success passes through, any
      error becomes one fixed message. */
  function ErasedHandle<E>(h: Subscriber<E>, e: EventEnvelope<E>): (r: Result<(), string>)
    ensures r.Ok? <==> h.handle(h.received, e).Ok?
    ensures r.Err? ==> r.error == EventHandlerFailed
  {
    match h.handle(h.received, e)
    case Ok(_) => Ok(())
    case Err(_) => Err(EventHandlerFailed)
  }

  /** The subscriber after it has been handed `e`, whatever the outcome. */
  function Handed<E>(h: Subscriber<E>, e: EventEnvelope<E>): Subscriber<E>
  {
    h.(received := h.received + [e])
  }

  /** `InMemoryEventBus::new`. */
  function New<E>(): (bus: InMemoryEventBus<E>)
    ensures |bus.handlers| == 0
  {
    InMemoryEventBus([])
  }

  /** `subscribe(handler)`: the new subscriber goes last; the others keep
      their places. */
  function Subscribe<E>(bus: InMemoryEventBus<E>, h: Subscriber<E>): (bus': InMemoryEventBus<E>)
    ensures |bus'.handlers| == |bus.handlers| + 1
    ensures bus'.handlers[..|bus.handlers|] == bus.handlers
    ensures bus'.handlers[|bus.handlers|] == h
  {
    InMemoryEventBus(bus.handlers + [h])
  }

  /** Event `i` delivered to the first `j` subscribers, in registration order. */
  function Round(i: nat, j: nat): seq<Delivery>
  {
    seq(j, h requires 0 <= h < j => Delivery(i, h))
  }

  /** The complete delivery order for `n` events and `m` subscribers: events
      on the outside, subscribers on the inside. */
  function Schedule(n: nat, m: nat): seq<Delivery>
  {
    if n == 0 then [] else Schedule(n - 1, m) + Round(n - 1, m)
  }

  /** The schedule has one delivery per (event, subscriber) pair. */
  lemma {:induction false} ScheduleLength(n: nat, m: nat)
    ensures |Schedule(n, m)| == n * m
  {
    if n > 0 {
      ScheduleLength(n - 1, m);
      assert (n - 1) * m + m == n * m;
    }
  }

  lemma MulMonotone(a: nat, b: nat, m: nat)
    requires a <= b
    ensures a * m <= b * m
  {
  }

  /** Event `i` meets subscriber `j` at position `i * m + j` of the schedule. */
  lemma {:induction false} ScheduleIndex(n: nat, m: nat, i: nat, j: nat)
    requires i < n && j < m
    ensures i * m + j < |Schedule(n, m)|
    ensures Schedule(n, m)[i * m + j] == Delivery(i, j)
    decreases n
  {
    ScheduleLength(n - 1, m);
    ScheduleLength(n, m);
    if i < n - 1 {
      MulMonotone(i + 1, n - 1, m);
      assert i * m + j < (n - 1) * m;
      ScheduleIndex(n - 1, m, i, j);
    } else {
      assert i * m + j == (n - 1) * m + j;
      assert Round(n - 1, m)[j] == Delivery(i, j);
    }
  }

  /** Publishing two events to two subscribers calls them in the order
      h1(e1), h2(e1), h1(e2), h2(e2). */
  lemma TwoByTwo()
    ensures Schedule(2, 2) == [Delivery(0, 0), Delivery(0, 1), Delivery(1, 0), Delivery(1, 1)]
  {
    assert Round(0, 2) == [Delivery(0, 0), Delivery(0, 1)];
    assert Round(1, 2) == [Delivery(1, 0), Delivery(1, 1)];
  }

  /** A shorter schedule is a prefix of a longer one. */
  lemma {:induction false} SchedulePrefix(i: nat, n: nat, m: nat)
    requires i <= n
    ensures Schedule(i, m) <= Schedule(n, m)
    decreases n - i
  {
    if i < n {
      SchedulePrefix(i + 1, n, m);
    }
  }

  /** Every (event, subscriber) pair appears in the schedule. */
  lemma {:induction false} InSchedule(i: nat, j: nat, n: nat, m: nat)
    requires i < n && j < m
    ensures Delivery(i, j) in Schedule(n, m)
    decreases n
  {
    if i == n - 1 {
      assert Round(n - 1, m)[j] == Delivery(i, j);
    } else {
      InSchedule(i, j, n - 1, m);
    }
  }

  /** The positions in a delivery exist. */
  predicate InRange(d: Delivery, n: nat, m: nat)
  {
    d.event < n && d.handler < m
  }

  /** Subscriber `d.handler` exists and accepts event `d.event` once it has
      been handed the events before it. */
  predicate Accepts<E>(bus: InMemoryEventBus<E>, events: seq<EventEnvelope<E>>, d: Delivery)
  {
    && InRange(d, |events|, |bus.handlers|)
    && var h := bus.handlers[d.handler];
       h.handle(h.received + events[..d.event], events[d.event]).Ok?
  }

  /** Subscriber `h` once it has been handed the first `count` events. */
  function After<E>(h: Subscriber<E>, events: seq<EventEnvelope<E>>, count: nat): Subscriber<E>
    requires count <= |events|
  {
    h.(received := h.received + events[..count])
  }

  /** `bus'` is `bus` after the subscribers before `j` have been handed the
      events up to `i` and the others the events before `i`. */
  ghost predicate HandedUpTo<E>(bus: InMemoryEventBus<E>, bus': InMemoryEventBus<E>, events: seq<EventEnvelope<E>>, i: nat, j: nat)
    requires i < |events| || (i == |events| && j == 0)
  {
    && |bus'.handlers| == |bus.handlers|
    && forall h :: 0 <= h < |bus.handlers| ==>
         bus'.handlers[h] == After(bus.handlers[h], events, if h < j then i + 1 else i)
  }

  /** Before any call, no subscriber has been handed anything. */
  lemma NothingHanded<E>(bus: InMemoryEventBus<E>, events: seq<EventEnvelope<E>>)
    ensures HandedUpTo(bus, bus, events, 0, 0)
  {
    forall h | 0 <= h < |bus.handlers|
      ensures bus.handlers[h] == After(bus.handlers[h], events, 0)
    {
      assert bus.handlers[h].received + events[..0] == bus.handlers[h].received;
    }
  }

  /** Calling subscriber `j` with event `i` asks it exactly what `Accepts`
      asks, and afterwards it too has been handed event `i`. */
  lemma HandNext<E>(bus: InMemoryEventBus<E>, bus': InMemoryEventBus<E>, events: seq<EventEnvelope<E>>, i: nat, j: nat)
    requires i < |events| && j < |bus.handlers|
    requires HandedUpTo(bus, bus', events, i, j)
    ensures ErasedHandle(bus'.handlers[j], events[i]).Ok? <==> Accepts(bus, events, Delivery(i, j))
    ensures HandedUpTo(bus, InMemoryEventBus(bus'.handlers[j := Handed(bus'.handlers[j], events[i])]), events, i, j + 1)
  {
    assert events[..i] + [events[i]] == events[..i + 1];
  }

  /** Once every subscriber has been handed event `i`, the next round starts. */
  lemma NextEvent<E>(bus: InMemoryEventBus<E>, bus': InMemoryEventBus<E>, events: seq<EventEnvelope<E>>, i: nat)
    requires i < |events|
    requires HandedUpTo(bus, bus', events, i, |bus.handlers|)
    ensures HandedUpTo(bus, bus', events, i + 1, 0)
  {
  }

  /** `publish(events)`. The calls made follow the schedule; publishing
      succeeds exactly when every subscriber accepts every event, and then
      every pair was called; otherwise the last call made is the first one in
      schedule order that failed, every earlier call succeeded, and no later
      call was made. `bus'` holds the subscribers as the calls left them:
      each has been handed exactly the events it was called with. */
  method Publish<E>(bus: InMemoryEventBus<E>, events: seq<EventEnvelope<E>>)
    returns (r: Result<(), string>, trace: seq<Delivery>, bus': InMemoryEventBus<E>)
    ensures r.Ok? <==> forall i, j :: 0 <= i < |events| && 0 <= j < |bus.handlers| ==> Accepts(bus, events, Delivery(i, j))
    ensures r.Ok? ==> trace == Schedule(|events|, |bus.handlers|)
    ensures r.Err? ==> |trace| > 0 && !Accepts(bus, events, trace[|trace| - 1]) && r.error == EventHandlerFailed
    ensures trace <= Schedule(|events|, |bus.handlers|)
    ensures forall k :: 0 <= k < |trace| ==> InRange(trace[k], |events|, |bus.handlers|)
    ensures forall k :: 0 <= k < |trace| - 1 ==> Accepts(bus, events, trace[k])
    ensures r.Ok? ==> HandedUpTo(bus, bus', events, |events|, 0)
    ensures r.Err? ==> HandedUpTo(bus, bus', events, trace[|trace| - 1].event, trace[|trace| - 1].handler + 1)
  {
    var n, m := |events|, |bus.handlers|;
    trace := [];
    bus' := bus;
    var i := 0;
    NothingHanded(bus, events);
    while i < n
      invariant i <= n
      invariant trace == Schedule(i, m)
      invariant forall k :: 0 <= k < |trace| ==> InRange(trace[k], n, m) && Accepts(bus, events, trace[k])
      invariant HandedUpTo(bus, bus', events, i, 0)
    {
      var j := 0;
      while j < m
        invariant j <= m
        invariant trace == Schedule(i, m) + Round(i, j)
        invariant forall k :: 0 <= k < |trace| ==> InRange(trace[k], n, m) && Accepts(bus, events, trace[k])
        invariant HandedUpTo(bus, bus', events, i, j)
      {
        SchedulePrefix(i + 1, n, m);
        assert Schedule(i, m) + Round(i, j + 1) <= Schedule(i + 1, m);
        trace := trace + [Delivery(i, j)];
        var s := bus'.handlers[j];
        var outcome := ErasedHandle(s, events[i]);
        HandNext(bus, bus', events, i, j);
        bus' := InMemoryEventBus(bus'.handlers[j := Handed(s, events[i])]);
        if outcome.Err? {
          r := outcome;
          return;
        }
        j := j + 1;
      }
      NextEvent(bus, bus', events, i);
      i := i + 1;
    }
    forall a, b | 0 <= a < n && 0 <= b < m
      ensures Accepts(bus, events, Delivery(a, b))
    {
      InSchedule(a, b, n, m);
    }
    ScheduleLength(n, m);
    r := Ok(());
  }

  /** A subscriber that refuses an envelope it has already been handed fails
      on the second call when the same envelope is published twice. */
  method RepeatedEnvelopeRejected<E(==)>(e: EventEnvelope<E>)
    returns (r: Result<(), string>, trace: seq<Delivery>, bus': InMemoryEventBus<E>)
    ensures r == Err(EventHandlerFailed)
    ensures trace == [Delivery(0, 0), Delivery(1, 0)]
    ensures |bus'.handlers| == 1
    ensures bus'.handlers[0].received == [e, e]
  {
    var refuse := (seen: seq<EventEnvelope<E>>, x: EventEnvelope<E>) => if x in seen then Err("already handled") else Ok(());
    var bus := Subscribe(New<E>(), Subscriber([], refuse));
    assert Accepts(bus, [e, e], Delivery(0, 0));
    assert !Accepts(bus, [e, e], Delivery(1, 0));
    assert Schedule(2, 1) == [Delivery(0, 0), Delivery(1, 0)] by {
      assert Round(0, 1) == [Delivery(0, 0)];
      assert Round(1, 1) == [Delivery(1, 0)];
    }
    r, trace, bus' := Publish(bus, [e, e]);
  }
}

=== FILE: event_store.dfy ===
/** `PostgresEventStore`: the per-aggregate append log with its
    compare-and-append guard. The `events` table is a map from aggregate id
    to that id's rows in insertion order; the database transaction is a
    working copy of the map that either replaces the old one on commit or is
    dropped. Everything the database or `serde_json` may do wrong is an
    oracle of the `Backend`. */
module EventStore {
  import opened Results
  import opened Metadata

  type AggregateId = string

  /** One row of the `events` table for a given aggregate id. The JSON
      columns are represented by the envelope they encode. */
  datatype Row<+E> = Row(version: nat, envelope: EventEnvelope<E>)

  type Log<E> = seq<Row<E>>

  type Table<E> = map<AggregateId, Log<E>>

  /** `PostgresError`. */
  datatype StoreError = Sqlx | Serialization | ConcurrencyConflict

  /** Which I/O steps succeed: opening the transaction, the version query,
      the JSON encoding of an event or of its metadata, each insert, the
      commit, the read query and the JSON decoding of a row. */
  datatype Backend<!E> = Backend(
    beginOk: bool,
    selectOk: bool,
    encodeEventOk: E -> bool,
    encodeMetadataOk: EventMetadata -> bool,
    insertOk: (AggregateId, Row<E>) -> bool,
    commitOk: bool,
    fetchOk: bool,
    decodeOk: Row<E> -> bool)

  /** The result of `save_events` together with the table it leaves behind. */
  datatype Commit<E> = Commit(result: Result<(), StoreError>, table: Table<E>)

  /** The rows of one aggregate id; an unknown id has none. */
  function LogOf<E>(t: Table<E>, id: AggregateId): Log<E>
  {
    if id in t then t[id] else []
  }

  /** `COALESCE(MAX(version), 0)` over some rows. */
  function MaxVersion<E>(log: Log<E>): (m: nat)
    ensures forall i :: 0 <= i < |log| ==> log[i].version <= m
    ensures m == 0 || exists i :: 0 <= i < |log| && log[i].version == m
    decreases |log|
  {
    if |log| == 0 then 0
    else
      var prev := MaxVersion(log[..|log| - 1]);
      var last := log[|log| - 1].version;
      if prev < last then last else prev
  }

  /** The version the append guard compares against: the highest stored
      version of the id, or 0 when it has no rows. */
  function CurrentVersion<E>(t: Table<E>, id: AggregateId): (v: nat)
    ensures id !in t ==> v == 0
    ensures forall i :: 0 <= i < |LogOf(t, id)| ==> LogOf(t, id)[i].version <= v
    ensures v == 0 || exists i :: 0 <= i < |LogOf(t, id)| && LogOf(t, id)[i].version == v
  {
    MaxVersion(LogOf(t, id))
  }

  /** Rows carry the versions `base + 1, base + 2, ...` in order. */
  ghost predicate StartsAfter<E>(log: Log<E>, base: nat)
  {
    forall i :: 0 <= i < |log| ==> log[i].version == base + i + 1
  }

  /** The shape every reachable log has: versions 1 .. n in insertion order. */
  ghost predicate Contiguous<E>(log: Log<E>)
  {
    StartsAfter(log, 0)
  }

  /** Every aggregate id's log is contiguous. */
  ghost predicate ValidTable<E>(t: Table<E>)
  {
    forall id :: id in t ==> Contiguous(t[id])
  }

  ghost predicate Ascending<E>(log: Log<E>)
  {
    forall i, j :: 0 <= i < j < |log| ==> log[i].version < log[j].version
  }

  /** The rows a successful append of `events` at `expected` adds:
      the i-th envelope at version `expected + i + 1`. */
  function Stamp<E>(events: seq<EventEnvelope<E>>, expected: nat): Log<E>
  {
    seq(|events|, i requires 0 <= i < |events| => Row(expected + i + 1, events[i]))
  }

  /** The table after `rows` have been inserted for `id`; inserting nothing
      leaves the table as it is. */
  function Appended<E>(t: Table<E>, id: AggregateId, rows: Log<E>): Table<E>
  {
    if |rows| == 0 then t else t[id := LogOf(t, id) + rows]
  }

  /** Encoding the envelope and inserting its row at `version` both succeed. */
  predicate RowWritable<E>(b: Backend<E>, id: AggregateId, e: EventEnvelope<E>, version: nat)
  {
    && b.encodeEventOk(e.event)
    && b.encodeMetadataOk(e.metadata)
    && b.insertOk(id, Row(version, e))
  }

  ghost predicate AllWritable<E>(b: Backend<E>, id: AggregateId, events: seq<EventEnvelope<E>>, expected: nat)
  {
    forall k :: 0 <= k < |events| ==> RowWritable(b, id, events[k], expected + k + 1)
  }

  /** The insert loop of `save_events`, from the `i`-th envelope on, against
      the transaction's working table `tx`. The first failing step ends it. */
  function InsertRows<E>(b: Backend<E>, tx: Table<E>, id: AggregateId, events: seq<EventEnvelope<E>>,
                         expected: nat, i: nat): (r: Result<Table<E>, StoreError>)
    requires i <= |events|
    ensures r.Ok? <==> forall k :: i <= k < |events| ==> RowWritable(b, id, events[k], expected + k + 1)
    ensures r.Ok? ==> r.value == Appended(tx, id, Stamp(events, expected)[i..])
    ensures r.Err? ==> r.error != ConcurrencyConflict
    decreases |events| - i
  {
    if i == |events| then Ok(tx)
    else
      var e := events[i];
      var row := Row(expected + i + 1, e);
      if !b.encodeEventOk(e.event) then Err(Serialization)
      else if !b.encodeMetadataOk(e.metadata) then Err(Serialization)
      else if !b.insertOk(id, row) then Err(Sqlx)
      else
        var tx' := tx[id := LogOf(tx, id) + [row]];
        var later := Stamp(events, expected)[i + 1..];
        assert Stamp(events, expected)[i..] == [row] + later;
        assert LogOf(tx', id) + later == LogOf(tx, id) + ([row] + later);
        assert Appended(tx', id, later) == Appended(tx, id, [row] + later) by {
          if |later| > 0 {
            assert tx'[id := LogOf(tx', id) + later] == tx[id := LogOf(tx, id) + ([row] + later)];
          } else {
            assert [row] + later == [row];
          }
        }
        InsertRows(b, tx', id, events, expected, i + 1)
  }

  /** `save_events(aggregate_id, events, expected_version)`. */
  function SaveEvents<E>(t: Table<E>, b: Backend<E>, id: AggregateId, events: seq<EventEnvelope<E>>,
                         expected: nat): (c: Commit<E>)
    // all or nothing: a failed save leaves every log as it was
    ensures c.result.Err? ==> c.table == t
    ensures c.result.Ok? ==> c.table == Appended(t, id, Stamp(events, expected))
    // the guard: once the version could be read, a conflict is exactly a version mismatch
    ensures b.beginOk && b.selectOk ==> (c.result == Err(ConcurrencyConflict) <==> CurrentVersion(t, id) != expected)
    // and a conflict is never reported for anything but a version mismatch
    ensures c.result == Err(ConcurrencyConflict) ==> b.beginOk && b.selectOk && CurrentVersion(t, id) != expected
    ensures c.result.Ok? <==>
              b.beginOk && b.selectOk && CurrentVersion(t, id) == expected
              && AllWritable(b, id, events, expected) && b.commitOk
    ensures forall other :: other != id ==> LogOf(c.table, other) == LogOf(t, other)
  {
    if !b.beginOk then Commit(Err(Sqlx), t)
    else if !b.selectOk then Commit(Err(Sqlx), t)
    else if CurrentVersion(t, id) != expected then Commit(Err(ConcurrencyConflict), t)
    else
      match InsertRows(b, t, id, events, expected, 0)
      case Err(e) => Commit(Err(e), t)
      case Ok(tx) =>
        assert Stamp(events, expected)[0..] == Stamp(events, expected);
        if b.commitOk then Commit(Ok(()), tx) else Commit(Err(Sqlx), t)
  }

  /** The highest version of a concatenation is the larger of the two parts' highest. */
  lemma {:induction false} MaxVersionAppend<E>(a: Log<E>, c: Log<E>)
    ensures MaxVersion(a + c) == if MaxVersion(a) < MaxVersion(c) then MaxVersion(c) else MaxVersion(a)
    decreases |c|
  {
    if |c| == 0 {
      assert a + c == a;
    } else {
      var c' := c[..|c| - 1];
      assert (a + c)[..|a + c| - 1] == a + c';
      MaxVersionAppend(a, c');
      assert c[..|c| - 1] == c';
    }
  }

  /** The rows of a batch end at version `expected + |events|`. */
  lemma StampMax<E>(events: seq<EventEnvelope<E>>, expected: nat)
    requires |events| > 0
    ensures MaxVersion(Stamp(events, expected)) == expected + |events|
  {
    var s := Stamp(events, expected);
    assert s[|s| - 1].version == expected + |events|;
  }

  /** After a successful save of n envelopes the aggregate is at version
      `expected + n`. */
  lemma SaveAdvancesVersion<E>(t: Table<E>, b: Backend<E>, id: AggregateId, events: seq<EventEnvelope<E>>, expected: nat)
    requires SaveEvents(t, b, id, events, expected).result.Ok?
    ensures CurrentVersion(SaveEvents(t, b, id, events, expected).table, id) == expected + |events|
  {
    if |events| > 0 {
      MaxVersionAppend(LogOf(t, id), Stamp(events, expected));
      StampMax(events, expected);
    }
  }

  /** On success the batch follows the old rows, in input order: the i-th
      envelope (from 0) is stored at version `expected + i + 1`. */
  lemma SaveStoresBatchInOrder<E>(t: Table<E>, b: Backend<E>, id: AggregateId, events: seq<EventEnvelope<E>>, expected: nat)
    requires SaveEvents(t, b, id, events, expected).result.Ok?
    ensures var log' := LogOf(SaveEvents(t, b, id, events, expected).table, id);
            && |log'| == |LogOf(t, id)| + |events|
            && log'[..|LogOf(t, id)|] == LogOf(t, id)
            && forall i :: 0 <= i < |events| ==> log'[|LogOf(t, id)| + i] == Row(expected + i + 1, events[i])
  {
    var log := LogOf(t, id);
    var log' := LogOf(SaveEvents(t, b, id, events, expected).table, id);
    if |events| > 0 {
      assert log' == log + Stamp(events, expected);
    } else {
      assert log' == log;
    }
  }

  /** A contiguous log's highest version is its length. */
  lemma {:induction false} ContiguousMax<E>(log: Log<E>)
    requires Contiguous(log)
    ensures MaxVersion(log) == |log|
    decreases |log|
  {
    if |log| > 0 {
      var p := log[..|log| - 1];
      assert Contiguous(p);
      ContiguousMax(p);
    }
  }

  /** Appends keep every log contiguous: the guard admits a batch only at
      the log's length, so the batch continues the numbering. */
  lemma SavePreservesValid<E>(t: Table<E>, b: Backend<E>, id: AggregateId, events: seq<EventEnvelope<E>>, expected: nat)
    requires ValidTable(t)
    ensures ValidTable(SaveEvents(t, b, id, events, expected).table)
  {
    var c := SaveEvents(t, b, id, events, expected);
    if c.result.Ok? && |events| > 0 {
      var log := LogOf(t, id);
      ContiguousMax(log);
      var log' := log + Stamp(events, expected);
      assert Contiguous(log') by {
        forall i | 0 <= i < |log'|
          ensures log'[i].version == i + 1
        {
          if i >= |log| {
            assert log'[i] == Stamp(events, expected)[i - |log|];
          }
        }
      }
    }
  }

  /** Two writers that read the same version: once the first has appended a
      non-empty batch, the second one's save is a conflict and changes nothing. */
  lemma SecondWriterConflicts<E>(t: Table<E>, b1: Backend<E>, b2: Backend<E>, id: AggregateId,
                                 first: seq<EventEnvelope<E>>, second: seq<EventEnvelope<E>>, expected: nat)
    requires SaveEvents(t, b1, id, first, expected).result.Ok? && |first| > 0
    requires b2.beginOk && b2.selectOk
    ensures var t1 := SaveEvents(t, b1, id, first, expected).table;
            SaveEvents(t1, b2, id, second, expected) == Commit(Err(ConcurrencyConflict), t1)
  {
    SaveAdvancesVersion(t, b1, id, first, expected);
  }

  /** An empty batch never changes the table, and still fails when the
      expected version is wrong. */
  lemma EmptyBatch<E>(t: Table<E>, b: Backend<E>, id: AggregateId, expected: nat)
    ensures SaveEvents(t, b, id, [], expected).table == t
    ensures b.beginOk && b.selectOk && b.commitOk ==>
              SaveEvents(t, b, id, [], expected).result ==
                (if CurrentVersion(t, id) == expected then Ok(()) else Err(ConcurrencyConflict))
  {
  }

  /** `WHERE version > from`: the rows after `from`, in log order. */
  function RowsAfter<E>(log: Log<E>, from: int): (rows: Log<E>)
    ensures |rows| <= |log|
    decreases |log|
  {
    if |log| == 0 then []
    else if log[0].version > from then [log[0]] + RowsAfter(log[1..], from)
    else RowsAfter(log[1..], from)
  }

  /** The filter keeps exactly the rows whose version is above `from`. */
  lemma {:induction false} RowsAfterContents<E>(log: Log<E>, from: int)
    ensures forall k :: 0 <= k < |RowsAfter(log, from)| ==> RowsAfter(log, from)[k] in log && RowsAfter(log, from)[k].version > from
    ensures forall k :: 0 <= k < |log| && log[k].version > from ==> log[k] in RowsAfter(log, from)
    decreases |log|
  {
    if |log| > 0 {
      RowsAfterContents(log[1..], from);
      assert forall k :: 1 <= k < |log| ==> log[k] == log[1..][k - 1];
    }
  }

  /** Filtering keeps the order: an ascending log gives ascending rows. */
  lemma {:induction false} RowsAfterAscending<E>(log: Log<E>, from: int)
    requires Ascending(log)
    ensures Ascending(RowsAfter(log, from))
    decreases |log|
  {
    if |log| > 0 {
      var tail := log[1..];
      assert Ascending(tail);
      RowsAfterAscending(tail, from);
      var rest := RowsAfter(tail, from);
      RowsAfterContents(tail, from);
      forall k | 0 <= k < |rest|
        ensures log[0].version < rest[k].version
      {
        assert rest[k] in tail;
        var j :| 0 <= j < |tail| && tail[j] == rest[k];
        assert tail[j] == log[j + 1];
      }
    }
  }

  /** A negative bound selects every row, since versions are never negative. */
  lemma {:induction false} RowsAfterNegative<E>(log: Log<E>, from: int)
    requires from < 0
    ensures RowsAfter(log, from) == log
    decreases |log|
  {
    if |log| > 0 {
      RowsAfterNegative(log[1..], from);
      assert [log[0]] + log[1..] == log;
    }
  }

  /** On a log numbered from `base + 1`, the rows after `from` are a suffix:
      everything when `from <= base`, otherwise all but the first `from - base` rows. */
  lemma {:induction false} RowsAfterSuffix<E>(log: Log<E>, base: nat, from: nat)
    requires StartsAfter(log, base)
    ensures from <= base ==> RowsAfter(log, from) == log
    ensures base <= from ==> RowsAfter(log, from) == log[if from - base <= |log| then from - base else |log|..]
    decreases |log|
  {
    if |log| > 0 {
      assert StartsAfter(log[1..], base + 1);
      RowsAfterSuffix(log[1..], base + 1, from);
      if from <= base {
        assert [log[0]] + log[1..] == log;
      } else {
        assert log[1..][if from - base - 1 <= |log| - 1 then from - base - 1 else |log| - 1..]
            == log[if from - base <= |log| then from - base else |log|..];
      }
    }
  }

  /** The envelopes of some rows, in the same order. */
  function Envelopes<E>(rows: Log<E>): seq<EventEnvelope<E>>
  {
    seq(|rows|, k requires 0 <= k < |rows| => rows[k].envelope)
  }

  /** The decoding loop of a read: the first row that fails to decode ends it. */
  function DecodeRows<E>(b: Backend<E>, rows: Log<E>): (r: Result<seq<EventEnvelope<E>>, StoreError>)
    ensures r.Ok? <==> forall k :: 0 <= k < |rows| ==> b.decodeOk(rows[k])
    ensures r.Ok? ==> r.value == Envelopes(rows)
    ensures r.Err? ==> r.error == Serialization
    decreases |rows|
  {
    if |rows| == 0 then Ok([])
    else if !b.decodeOk(rows[0]) then Err(Serialization)
    else
      match DecodeRows(b, rows[1..])
      case Err(e) => Err(e)
      case Ok(rest) => Ok([rows[0].envelope] + rest)
  }

  /** Run a read query and decode the rows it returns. */
  function Fetch<E>(b: Backend<E>, rows: Log<E>): (r: Result<seq<EventEnvelope<E>>, StoreError>)
    ensures r.Ok? <==> b.fetchOk && forall k :: 0 <= k < |rows| ==> b.decodeOk(rows[k])
    ensures r.Ok? ==> r.value == Envelopes(rows)
    ensures r.Err? ==> r.error != ConcurrencyConflict
  {
    if !b.fetchOk then Err(Sqlx) else DecodeRows(b, rows)
  }

  /** `get_events(aggregate_id)`: every stored envelope, the k-th being the
      one stored at version k + 1; nothing (and no error) for an unknown id. */
  function GetEvents<E>(t: Table<E>, b: Backend<E>, id: AggregateId): (r: Result<seq<EventEnvelope<E>>, StoreError>)
    ensures r.Ok? <==> b.fetchOk && forall k :: 0 <= k < |LogOf(t, id)| ==> b.decodeOk(LogOf(t, id)[k])
    ensures ValidTable(t) && r.Ok? ==>
              && |r.value| == |LogOf(t, id)|
              && forall k :: 0 <= k < |r.value| ==> LogOf(t, id)[k] == Row(k + 1, r.value[k])
    ensures id !in t && b.fetchOk ==> r == Ok([])
    ensures r.Err? ==> r.error != ConcurrencyConflict
  {
    Fetch(b, LogOf(t, id))
  }

  /** `get_events_from_version(aggregate_id, from)`: the envelopes stored
      strictly after version `from`, the k-th being the one at version
      `from + k + 1`. */
  function GetEventsFromVersion<E>(t: Table<E>, b: Backend<E>, id: AggregateId, from: nat): (r: Result<seq<EventEnvelope<E>>, StoreError>)
    ensures r.Ok? <==> b.fetchOk && forall k :: 0 <= k < |LogOf(t, id)| && LogOf(t, id)[k].version > from ==> b.decodeOk(LogOf(t, id)[k])
    ensures ValidTable(t) && r.Ok? ==>
              && |r.value| == (if from <= |LogOf(t, id)| then |LogOf(t, id)| - from else 0)
              && forall k {:trigger r.value[k]} :: 0 <= k < |r.value| ==> LogOf(t, id)[from + k] == Row(from + k + 1, r.value[k])
    ensures r.Err? ==> r.error != ConcurrencyConflict
  {
    var r := Fetch(b, RowsAfter(LogOf(t, id), from));
    DecodableAfter(b, LogOf(t, id), from);
    ValidRowsAfter(t, id, from);
    r
  }

  /** Every row after `from` decodes exactly when every row of the filtered read does. */
  lemma DecodableAfter<E>(b: Backend<E>, log: Log<E>, from: int)
    ensures (forall k :: 0 <= k < |RowsAfter(log, from)| ==> b.decodeOk(RowsAfter(log, from)[k]))
       <==> (forall k :: 0 <= k < |log| && log[k].version > from ==> b.decodeOk(log[k]))
  {
    var rows := RowsAfter(log, from);
    RowsAfterContents(log, from);
    if forall k :: 0 <= k < |rows| ==> b.decodeOk(rows[k]) {
      forall k | 0 <= k < |log| && log[k].version > from
        ensures b.decodeOk(log[k])
      {
        assert log[k] in rows;
        var j :| 0 <= j < |rows| && rows[j] == log[k];
        assert b.decodeOk(rows[j]);
      }
    }
    if forall k :: 0 <= k < |log| && log[k].version > from ==> b.decodeOk(log[k]) {
      forall k | 0 <= k < |rows|
        ensures b.decodeOk(rows[k])
      {
        assert rows[k] in log && rows[k].version > from;
        var j :| 0 <= j < |log| && log[j] == rows[k];
        assert log[j].version > from;
      }
    }
  }

  /** In a valid table the rows after `from` are the log without its first `from` rows. */
  lemma ValidRowsAfter<E>(t: Table<E>, id: AggregateId, from: nat)
    ensures ValidTable(t) ==>
              RowsAfter(LogOf(t, id), from) == LogOf(t, id)[if from <= |LogOf(t, id)| then from else |LogOf(t, id)|..]
    ensures ValidTable(t) ==> Contiguous(LogOf(t, id))
  {
    if ValidTable(t) {
      RowsAfterSuffix(LogOf(t, id), 0, from);
    }
  }

  /** Reading from version 0 is reading everything, since every stored
      version is at least 1. */
  lemma FromZeroIsAll<E>(t: Table<E>, b: Backend<E>, id: AggregateId)
    requires ValidTable(t)
    ensures GetEventsFromVersion(t, b, id, 0) == GetEvents(t, b, id)
  {
    ValidRowsAfter(t, id, 0);
  }

  /** `x as i64` for a `u64` value `x`: the low 64 bits read as a
      two's-complement number, so 2^63 and above come out negative. */
  function AsI64(x: nat): (v: int)
    ensures -0x8000_0000_0000_0000 <= v < 0x8000_0000_0000_0000
    ensures x < 0x8000_0000_0000_0000 ==> v == x
    ensures 0x8000_0000_0000_0000 <= x < 0x1_0000_0000_0000_0000 ==> v == x - 0x1_0000_0000_0000_0000
  {
    var low := x % 0x1_0000_0000_0000_0000;
    if low < 0x8000_0000_0000_0000 then low else low - 0x1_0000_0000_0000_0000
  }

  /** `get_events_from_version` with the bound passed through `from_version as i64`
      as the code does, instead of as the version it names. */
  function GetEventsFromVersionAsWritten<E>(t: Table<E>, b: Backend<E>, id: AggregateId, from: nat): (r: Result<seq<EventEnvelope<E>>, StoreError>)
    ensures r.Ok? <==> b.fetchOk && forall k :: 0 <= k < |LogOf(t, id)| && LogOf(t, id)[k].version > AsI64(from) ==> b.decodeOk(LogOf(t, id)[k])
    ensures from < 0x8000_0000_0000_0000 ==> r == GetEventsFromVersion(t, b, id, from)
    ensures r.Err? ==> r.error != ConcurrencyConflict
  {
    DecodableAfter(b, LogOf(t, id), AsI64(from));
    Fetch(b, RowsAfter(LogOf(t, id), AsI64(from)))
  }

  /** As written, every `from_version` from 2^63 up to the largest `u64`
      reads the whole log, exactly as `get_events` does. */
  lemma WrappedBoundReadsAll<E>(t: Table<E>, b: Backend<E>, id: AggregateId, from: nat)
    requires 0x8000_0000_0000_0000 <= from < 0x1_0000_0000_0000_0000
    ensures GetEventsFromVersionAsWritten(t, b, id, from) == GetEvents(t, b, id)
  {
    RowsAfterNegative(LogOf(t, id), AsI64(from));
  }

  /** One stored event and `from_version = 2^63`: the code as written returns
      that event, while the version it names lies beyond the log, so the
      intended read returns nothing. */
  lemma WrappedBoundExample<E>(env: EventEnvelope<E>, b: Backend<E>)
    requires b.fetchOk && b.decodeOk(Row(1, env))
    ensures GetEventsFromVersionAsWritten(map["a" := [Row(1, env)]], b, "a", 0x8000_0000_0000_0000) == Ok([env])
    ensures GetEventsFromVersion(map["a" := [Row(1, env)]], b, "a", 0x8000_0000_0000_0000) == Ok([])
  {
    var t := map["a" := [Row(1, env)]];
    assert LogOf(t, "a") == [Row(1, env)];
    RowsAfterNegative(LogOf(t, "a"), AsI64(0x8000_0000_0000_0000));
    assert RowsAfter(LogOf(t, "a"), 0x8000_0000_0000_0000) == [] by {
      assert RowsAfter(LogOf(t, "a")[1..], 0x8000_0000_0000_0000) == [];
    }
    assert Envelopes([Row(1, env)]) == [env];
  }
}

=== FILE: metadata.dfy ===
/** The envelope that carries every event, with its provenance metadata.
    `EventMetadata::new` draws a random event id and reads the wall clock;
    here both are inputs of the constructor. */
module Metadata {
  import opened Results

  /** A UUID, opaque to the framework. */
  type Uuid = nat

  /** A UTC timestamp, opaque to the framework. */
  type Timestamp = int

  datatype EventMetadata = EventMetadata(
    eventId: Uuid,
    timestamp: Timestamp,
    correlationId: Uuid,
    causationId: Option<Uuid>)

  datatype EventEnvelope<+E> = EventEnvelope(event: E, metadata: EventMetadata)

  /** `EventMetadata::new(correlation_id, causation_id)`, with the fresh event
      id and the current time supplied by the caller. */
  function NewMetadata(correlationId: Uuid, causationId: Option<Uuid>, eventId: Uuid, now: Timestamp): EventMetadata
  {
    EventMetadata(eventId, now, correlationId, causationId)
  }

  /** The events inside a sequence of envelopes, in the same order. */
  function EventsOf<E>(envelopes: seq<EventEnvelope<E>>): seq<E>
  {
    seq(|envelopes|, i requires 0 <= i < |envelopes| => envelopes[i].event)
  }
}

=== FILE: query_bus.dfy ===
/** `InMemoryQueryBus`: the read-side twin of the command bus. A query
    handler's result travels back boxed and is downcast to the result type
    the caller's query declares. */
module QueryBus {
  import opened Results
  import opened Any

  const NoHandlerRegistered: string := "No handler registered for query"
  const QueryExecutionFailed: string := "Query execution failed"
  const ResultTypeMismatch: string := "Result type mismatch"

  /** A query type Q together with its associated `Q::Result` type. */
  datatype QueryType = QueryType(id: TypeId, result: TypeId)

  /** A `QueryHandler<Q>` as the bus sees it: an identity and a fallible `handle`. */
  datatype InnerHandler<!V> = InnerHandler(id: nat, handle: V -> Result<V, string>)

  /** `TypedQueryHandler<Q, H>`: a handler together with the query type Q it expects. */
  datatype TypedQueryHandler<!V> = TypedQueryHandler(query: QueryType, inner: InnerHandler<V>)

  datatype InMemoryQueryBus<!V> = InMemoryQueryBus(handlers: map<TypeId, TypedQueryHandler<V>>)

  /** Every registered handler sits under the tag of the query type it expects. */
  ghost predicate WellKeyed<V>(bus: InMemoryQueryBus<V>)
  {
    forall t :: t in bus.handlers ==> bus.handlers[t].query.id == t
  }

  /** `ErasedQueryHandler::handle` of a `TypedQueryHandler`: downcast the
      box, run the inner handler, flatten its error, box its result at the
      handler's `Q::Result`. */
  function ErasedHandle<V>(h: TypedQueryHandler<V>, boxed: Boxed<V>): (d: Dispatched<Boxed<V>, V>)
    ensures boxed.tag != h.query.id ==> d == Dispatched(Err(TypeMismatch), [])
    ensures boxed.tag == h.query.id ==>
              && d.calls == [Invocation(h.inner.id, boxed.value)]
              && (d.result.Ok? <==> h.inner.handle(boxed.value).Ok?)
              && (d.result.Ok? ==> d.result.value == Boxed(h.query.result, h.inner.handle(boxed.value).value))
              && (d.result.Err? ==> d.result.error == QueryExecutionFailed)
  {
    match Downcast(boxed, h.query.id)
    case None => Dispatched(Err(TypeMismatch), [])
    case Some(q) =>
      var outcome := match h.inner.handle(q)
        case Ok(r) => Ok(Boxed(h.query.result, r))
        case Err(_) => Err(QueryExecutionFailed);
      Dispatched(outcome, [Invocation(h.inner.id, q)])
  }

  /** `InMemoryQueryBus::new`. */
  function New<V>(): (bus: InMemoryQueryBus<V>)
    ensures |bus.handlers| == 0
    ensures WellKeyed(bus)
  {
    InMemoryQueryBus(map[])
  }

  /** `register_handler::<Q, H>(handler)`: binds Q's tag to the handler,
      replacing any earlier binding, and leaves every other binding alone. */
  function RegisterHandler<V>(bus: InMemoryQueryBus<V>, q: QueryType, h: InnerHandler<V>): (bus': InMemoryQueryBus<V>)
    ensures bus'.handlers.Keys == bus.handlers.Keys + {q.id}
    ensures bus'.handlers[q.id] == TypedQueryHandler(q, h)
    ensures forall t :: t in bus.handlers && t != q.id ==> bus'.handlers[t] == bus.handlers[t]
    ensures WellKeyed(bus) ==> WellKeyed(bus')
  {
    InMemoryQueryBus(bus.handlers[q.id := TypedQueryHandler(q, h)])
  }

  /** `send::<Q>(query)`: refused without any call when Q has no handler;
      otherwise the bound handler is called once, its failure flattened, and
      its boxed result downcast to the caller's `Q::Result`. */
  function Send<V>(bus: InMemoryQueryBus<V>, q: QueryType, query: V): (d: Dispatched<V, V>)
    ensures q.id !in bus.handlers ==> d == Dispatched(Err(NoHandlerRegistered), [])
    ensures WellKeyed(bus) && q.id in bus.handlers ==>
              var h := bus.handlers[q.id];
              && d.calls == [Invocation(h.inner.id, query)]
              && (h.inner.handle(query).Err? ==> d.result == Err(QueryExecutionFailed))
              && (h.inner.handle(query).Ok? && h.query.result == q.result ==> d.result == Ok(h.inner.handle(query).value))
              && (h.inner.handle(query).Ok? && h.query.result != q.result ==> d.result == Err(ResultTypeMismatch))
  {
    if q.id !in bus.handlers then Dispatched(Err(NoHandlerRegistered), [])
    else
      var d := ErasedHandle(bus.handlers[q.id], Boxed(q.id, query));
      match d.result
      case Err(e) => Dispatched(Err(e), d.calls)
      case Ok(boxedResult) =>
        match Downcast(boxedResult, q.result)
        case None => Dispatched(Err(ResultTypeMismatch), d.calls)
        case Some(r) => Dispatched(Ok(r), d.calls)
  }

  /** A new bus refuses every query. */
  lemma NewBusRefuses<V>(q: QueryType, query: V)
    ensures Send(New<V>(), q, query) == Dispatched(Err(NoHandlerRegistered), [])
  {
  }

  /** Round trip through the registry: once a handler is registered for Q,
      sending a Q calls exactly that handler once and returns exactly its
      result (box then downcast is the identity), or the flattened failure.
      Neither mismatch message can occur. */
  lemma RegisteredRoundTrip<V>(bus: InMemoryQueryBus<V>, q: QueryType, h: InnerHandler<V>, query: V)
    requires WellKeyed(bus)
    ensures var d := Send(RegisterHandler(bus, q, h), q, query);
            && d.calls == [Invocation(h.id, query)]
            && (h.handle(query).Ok? ==> d.result == Ok(h.handle(query).value))
            && (h.handle(query).Err? ==> d.result == Err(QueryExecutionFailed))
  {
    var bus' := RegisterHandler(bus, q, h);
    assert WellKeyed(bus');
  }

  /** On a bus built by `new` and `register_handler`, the query downcast
      inside `send` cannot fail. */
  lemma NoTypeMismatch<V>(bus: InMemoryQueryBus<V>, q: QueryType, query: V)
    requires WellKeyed(bus)
    ensures Send(bus, q, query).result != Err(TypeMismatch)
  {
  }
}

=== FILE: results.dfy ===
/** The two failure-carrying shapes the framework returns everywhere:
    Rust's `Option<T>` and `Result<T, E>`. */
module Results {

  datatype Option<+T> = None | Some(value: T)

  datatype Result<+T, +E> = Ok(value: T) | Err(error: E)

  /** `Result::ok` followed by `Option::flatten`: every error becomes `None`. */
  function OkFlatten<T, E>(r: Result<Option<T>, E>): (o: Option<T>)
    ensures o.Some? <==> r.Ok? && r.value.Some?
    ensures o.Some? ==> o.value == r.value.value
  {
    match r
    case Ok(inner) => inner
    case Err(_) => None
  }

  /** `Option::unwrap_or`. */
  function UnwrapOr<T>(o: Option<T>, default: T): T
  {
    match o
    case Some(v) => v
    case None => default
  }
}

=== FILE: snapshots.dfy ===
/** The `SnapshotStore` the command handler talks to: at most one saved
    aggregate per id (a save overwrites), and a load or a save that may fail. */
module Snapshots {
  import opened Results
  import opened EventStore

  datatype SnapshotError = SnapshotUnavailable

  datatype SnapshotStore<S> = SnapshotStore(saved: map<AggregateId, S>, loadOk: bool, saveOk: bool)

  /** A snapshot store with nothing in it that never fails. */
  function EmptySnapshots<S>(): SnapshotStore<S>
  {
    SnapshotStore(map[], true, true)
  }

  /** `get_snapshot(aggregate_id)`. */
  function GetSnapshot<S>(st: SnapshotStore<S>, id: AggregateId): (r: Result<Option<S>, SnapshotError>)
    ensures r.Ok? <==> st.loadOk
    ensures r.Ok? ==> (r.value.Some? <==> id in st.saved)
    ensures r.Ok? && r.value.Some? ==> r.value.value == st.saved[id]
  {
    if !st.loadOk then Err(SnapshotUnavailable)
    else if id in st.saved then Ok(Some(st.saved[id]))
    else Ok(None)
  }

  /** `save_snapshot(aggregate_id, snapshot)`: on success the id's snapshot is
      replaced and every other id keeps its own; on failure nothing changes. */
  function SaveSnapshot<S>(st: SnapshotStore<S>, id: AggregateId, s: S): (r: (Result<(), SnapshotError>, SnapshotStore<S>))
    ensures r.0.Ok? <==> st.saveOk
    ensures r.0.Ok? ==> r.1.saved.Keys == st.saved.Keys + {id} && r.1.saved[id] == s
    ensures forall other :: other in st.saved && other != id ==> other in r.1.saved && r.1.saved[other] == st.saved[other]
    ensures r.0.Err? ==> r.1 == st
  {
    if st.saveOk then (Ok(()), st.(saved := st.saved[id := s])) else (Err(SnapshotUnavailable), st)
  }
}
